=== FILE: README.md ===
# WebClientProject core, modelled in Dafny

WebClientProject is a small web app for building YouTube playlists. An
Express server keeps user accounts and playlists in two JSON files and keeps
login sessions in an in-process map. A browser client searches YouTube
through the server and renders the playlists page. This project models the
part of that system that decides outcomes:

- **Sessions and the authentication gate** (`server/lib/auth.js`). Tokens
  are 24 random bytes written as lowercase hex. A lookup with a falsy cookie
  finds nothing. `requireAuth` either answers 401 or hands the route the
  username stored in the session. (module `Sessions`)
- **Accounts** (`server/server.js`). This covers the password rules and the
  register, login, logout and `/api/me` handlers. Each is a pure transition
  from (users, sessions, request) to (reply, new state). Usernames are
  unique ignoring case, and login finds the user ignoring case. (module
  `Accounts`)
- **The playlist store** (`server/server.js`). It is one ordered sequence
  holding every user's playlists. Each of the six playlist routes is one
  load → change → save step over the whole sequence. A playlist is reached
  only when its owner and its id both match. (modules `PlaylistStore`,
  `StoreLaws`)
- **The request path** for playlist routes. The gate runs first, and the
  handler then acts for the session's user. (module `Api`)
- **Video metadata** (`server/client/assets/js/youtube.js`). This covers the
  ISO 8601 duration pattern `PT[nH][nM][nS]` (section 4.4.3.2 of
  ISO 8601:2004, whole-number hours, minutes and seconds only), `m:ss`
  formatting, and how search results are normalised. (module `Duration`)
- **HTML escaping** (`server/client/assets/js/ui.js`): the five
  `replaceAll` passes, ampersand first. (module `Html`)
- **Playlist page logic** (`server/client/assets/js/playlists.js`). This
  covers the stable rating sort, the case-insensitive title filter, and
  which playlist is active after a load, a refresh or a delete. (module
  `PlaylistView`)

Supporting modules: `Js` holds JavaScript's optional values, falsiness and
numbers. `Http` holds status codes and replies. `Text` holds ASCII classes,
lower-casing, `trim`, `includes` and decimal digits. `Seqs` holds the
order-preserving subsequence relation.

Modelling conventions:

- A request field that may be missing is an `Option`. JavaScript's
  falsiness for such a string is `None` or `Some("")`.
- Every handler that can write returns `Step(reply, state)`. `Me` and
  `HandleMe` write nothing and return just the reply. A reply is `Ok(value)`
  or `Fail(status, message)`, with the source's status codes and its exact
  messages.
- Anything the code gets from outside becomes a parameter: the password
  hash function, the random token bytes, the clock and the fresh playlist id.

Two behaviours of the code are worth stating plainly:

- Removing an item answers with the updated playlist (`{ok: true, playlist}`).
- A rating is any finite number from 0 to 5, fractions included. Only the
  rating route checks the range. The add-item route stores
  `Number(item.rating || 0)` unchecked.

## Model

| member | source | states |
|---|---|---|
| Sessions.HexEncode | server/lib/auth.js:12 | the token has two lowercase hex digits per random byte, so 48 for the 24 bytes drawn |
| Sessions.HexRoundTrip | server/lib/auth.js:12 | reading the hex back gives the random bytes, so distinct byte strings give distinct tokens |
| Sessions.CreateSession | server/lib/auth.js:11-15 | the issued token is well formed, maps to `{username, createdAt}`, and every other entry is unchanged |
| Sessions.DeleteSession | server/lib/auth.js:17-19 | the token is gone, every other entry is unchanged, and an unknown token changes nothing |
| Sessions.GetSession | server/lib/auth.js:21-23 | a falsy token finds nothing; otherwise the lookup finds the stored session exactly when the token is a key |
| Sessions.RequireAuth | server/lib/auth.js:25-31 | answers 401 "Not authenticated" exactly when the cookie is falsy or unknown; otherwise yields the stored username and the token |
| Sessions.GetAfterCreate | server/lib/auth.js:11-23 | a new session is found under its token, and lookups of other tokens are unaffected |
| Sessions.GetAfterDelete | server/lib/auth.js:17-23 | after deletion the token resolves to nothing, and other lookups are unaffected |
| Sessions.DeleteUndoesCreate | server/lib/auth.js:11-19 | deleting a session just created under an unused token restores the map |
| Sessions.AuthAfterCreate | server/lib/auth.js:11-31 | the gate admits a new token as exactly the user it was issued for |
| Accounts.PublicView | server/server.js:51-53 | the public record carries exactly the username, first name and image URL; it has no field for the password digest |
| Accounts.Scan | server/server.js:45-47 | the character-class test succeeds exactly when some character of the password is in the class |
| Accounts.ValidatePassword | server/server.js:43-49 | no message exactly when all four rules hold; otherwise the message of the first failing rule, in the source's order |
| Accounts.FindIgnoringCase | server/server.js:72 | the first user whose lower-cased name equals the lower-cased input, or none exactly when no user matches |
| Accounts.FindExact | server/server.js:125 | the first user whose name equals the input exactly, or none exactly when there is none |
| Accounts.Register | server/server.js:59-86 | checks in order: missing field 400, mismatch 400, password rule 400, case-insensitive duplicate 409; success appends exactly one user with the hashed password; any failure writes nothing |
| Accounts.RegisterKeepsNamesUnique | server/server.js:71-83 | registration keeps usernames unique ignoring case |
| Accounts.CaseVariantConflicts | server/server.js:72-73 | after a registration, any case variant of that name is refused with 409 |
| Accounts.Login | server/server.js:89-112 | 400 when a credential is falsy; otherwise any failure is 401 with the same message for an unknown name and a wrong password; success exactly when the first case-insensitive match's hash equals the hash of the password, and then a session is created for the stored username |
| Accounts.RegisterThenLogin | server/server.js:59-112 | a user who just registered can log in with any case variant of the name, and the session carries the name as registered |
| Accounts.Logout | server/server.js:115-120 | always succeeds; the cookie's session no longer resolves, and every other session is unaffected |
| Accounts.Me | server/server.js:123-128 | succeeds exactly when a user has the session's username exactly, and returns the public fields of the first such user; otherwise 401 |
| PlaylistStore.Mine | server/server.js:135 | exactly the playlists owned by the user, in stored order |
| PlaylistStore.FindOwned | server/server.js:186 | the first playlist matching owner and id, or none exactly when no playlist matches both |
| PlaylistStore.Without | server/server.js:167 | keeps, in order, exactly the playlists not matching owner and id; the length is unchanged exactly when none matched |
| PlaylistStore.FindItem | server/server.js:220 | the first item with the video id, or none exactly when the playlist lacks it |
| PlaylistStore.DropVideo | server/server.js:238 | keeps, in order, exactly the items with other video ids; the length is unchanged exactly when the video was absent |
| PlaylistStore.List | server/server.js:133-137 | returns the owner filter `Mine` of the store for the caller, so exactly the caller's playlists in stored order, and writes nothing |
| PlaylistStore.Create | server/server.js:140-159 | 400 with nothing written exactly when the name is missing or all whitespace; otherwise appends one empty playlist with the trimmed name and the caller as owner, leaving every other playlist unchanged |
| PlaylistStore.DeletePlaylist | server/server.js:162-174 | 404 with nothing written exactly when no playlist matches owner and id; otherwise the new store is the delete filter `Without` of the old one, so exactly the matching playlists are gone and the rest keep their order |
| PlaylistStore.NewItem | server/server.js:191-199 | the stored item has the sent video id and title, the request time, and each optional field as sent or "" / 0 when it was left out |
| PlaylistStore.AddItem | server/server.js:177-204 | 400 for a payload without video id or title, 404 for a missing playlist; a video already present leaves the store unchanged; otherwise appends one item with defaulted fields; only the found playlist changes |
| PlaylistStore.SetRating | server/server.js:207-227 | 400 for a non-finite rating or one outside 0..5, checked before any lookup; 404 for a missing playlist or item; otherwise only that item's rating changes |
| PlaylistStore.RemoveItem | server/server.js:230-245 | 404 for a missing playlist, or when no item has the video id; otherwise the caller's playlist gets the item list `DropVideo` of its old items, every other playlist is unchanged, and the reply is the updated playlist |
| StoreLaws.MineAppend | server/server.js:135 | the owner filter distributes over appending playlists |
| StoreLaws.MineUpdate | server/server.js:135 | replacing a playlist that a user neither owned nor now owns leaves that user's list unchanged |
| StoreLaws.MineWithout | server/server.js:135-167 | deleting one user's playlists leaves every other user's list unchanged |
| StoreLaws.WithoutNoMatch | server/server.js:166-170 | when nothing matches owner and id, the filter keeps the store as it is |
| StoreLaws.WithoutAppend | server/server.js:167 | the delete filter distributes over appending playlists |
| StoreLaws.CreateThenDelete | server/server.js:140-174 | creating a playlist and then deleting it by its new id restores the store |
| StoreLaws.DropVideoDistributes | server/server.js:238 | the item filter distributes over concatenation, so every kept item keeps all of its copies |
| StoreLaws.DropVideoAbsent | server/server.js:238 | filtering out a video the list lacks returns the list unchanged |
| StoreLaws.DropVideoAppend | server/server.js:238 | filtering out the video of an item just appended removes that item again |
| StoreLaws.FindOwnedAfterUpdate | server/server.js:186 | a playlist updated in place with the same owner and id is still the one a lookup finds |
| StoreLaws.AddThenRemove | server/server.js:177-245 | adding a video the playlist lacks and then removing it restores the store |
| StoreLaws.AddItemIdempotent | server/server.js:189-203 | repeating an add, at any later time, changes nothing and gives the same answer |
| StoreLaws.RemoveItemTwice | server/server.js:230-245 | a second removal of the same video answers 404 and writes nothing |
| StoreLaws.RatingBoundaries | server/server.js:210-214 | ratings 0 and 5 are accepted; -1, 6 and non-finite values are refused with 400 before any lookup |
| StoreLaws.ForeignIdLooksMissing | server/server.js:162-245 | an id owned by another user and an id nobody has get identical answers and identical stores from delete, add-item, set-rating and remove-item |
| StoreLaws.WithoutKeepsUniqueIds | server/server.js:167 | the delete filter keeps playlist ids unique |
| StoreLaws.DropVideoKeepsUnique | server/server.js:238 | the item filter keeps video ids unique within a playlist |
| StoreLaws.CreateKeepsWellFormed | server/server.js:140-159 | with a fresh id, creation keeps ids unique and each playlist free of duplicate videos |
| StoreLaws.DeleteKeepsWellFormed | server/server.js:162-174 | deletion keeps the store well formed |
| StoreLaws.AddItemKeepsWellFormed | server/server.js:189-201 | the duplicate check keeps video ids unique within the playlist |
| StoreLaws.SetRatingKeepsWellFormed | server/server.js:220-224 | changing a rating keeps the store well formed |
| StoreLaws.RemoveItemKeepsWellFormed | server/server.js:237-243 | removing an item keeps the store well formed |
| Api.Dispatch | server/server.js:133-245 | each route runs its own handler: the store left behind, success or failure, and the failure's status and message are that handler's, and a playlist reply carries the handler's playlist; a failing route answers 400 or 404 and writes nothing; listing returns the caller's playlists; a successful delete answers `{ok: true}`; every other successful route replies with a playlist the caller owns |
| Api.Handle | server/server.js:133-245 | without a resolvable session the answer is 401 and the store is untouched; otherwise the route runs for the session's username |
| Api.HandleMe | server/server.js:123-128 | `/api/me` answers 401 without a session; with one, it answers what `Me` gives for the session's username, so a user who still exists is returned |
| Api.IdentityFromSessionOnly | server/lib/auth.js:29 | the outcome of a playlist request depends on the session only through the username it resolves to |
| Api.HandleIsolatesOwners | server/server.js:133-245 | whatever the request, every user other than the session's user sees exactly the playlists they saw before |
| Api.HandleKeepsWellFormed | server/server.js:140-245 | every playlist request keeps ids unique and each playlist free of duplicate videos |
| Duration.Iso8601DurationToSeconds | server/client/assets/js/youtube.js:3-10 | 0 when the pattern does not match; otherwise hours * 3600 + minutes * 60 + seconds of the reported groups, an absent group counting 0 |
| Duration.Match | server/client/assets/js/youtube.js:4 | when the anchored pattern matches, the captured groups are digit strings that spell the input exactly |
| Duration.MatchRender | server/client/assets/js/youtube.js:4 | every well-formed choice of groups is matched and reported back unchanged, so the parser accepts the whole language of the pattern |
| Duration.DurationOfGroups | server/client/assets/js/youtube.js:3-10 | a string of the pattern reads as h*3600 + m*60 + s, with absent parts counting 0 |
| Duration.DurationOfNonMatch | server/client/assets/js/youtube.js:5 | a string outside the pattern's language reads as 0 |
| Duration.BarePTIsZero | server/client/assets/js/youtube.js:4-9 | `PT` alone matches with every group absent and reads as 0 |
| Duration.DurationWithForeignCharIsZero | server/client/assets/js/youtube.js:4-5 | a string holding any character outside `PTHMS0-9` reads as 0 |
| Duration.PadSeconds | server/client/assets/js/youtube.js:15 | a seconds value below 60, padded, is exactly two digits that read back as the value |
| Duration.FormatDuration | server/client/assets/js/youtube.js:12-17 | negative input counts as 0; the text is the minute count in decimal, a colon and two digits below 60; reading both fields back gives the clamped seconds |
| Duration.MinutesSecondsDuration | server/client/assets/js/youtube.js:3-10 | `PT{m}M{s}S` reads as m*60 + s |
| Duration.FormatMinutesSeconds | server/client/assets/js/youtube.js:12-17 | m*60 + s seconds, with s below 60, formats as `{m}:{ss}` |
| Duration.ParseThenFormat | server/client/assets/js/youtube.js:3-17 | reading `PT{m}M{s}S`, with s below 60, and formatting the result gives back `{m}:{ss}` |
| Duration.Normalize | server/client/assets/js/youtube.js:39-45 | id, title and thumbnail are copied; a missing view count becomes 0; the duration is the seconds `Iso8601DurationToSeconds` reads from the raw text, so 0 unless the text is in the pattern's language |
| Duration.NormalizeAll | server/client/assets/js/youtube.js:39-45 | one result per raw result, in order: each keeps its id, title and thumbnail, its duration is the parsed seconds, and its view count is the raw one or 0 |
| Html.ReplaceAll | server/client/assets/js/ui.js:36-40 | a pattern absent from the replacement is absent from the output; with no occurrence nothing changes; the output is never shorter |
| Html.ReplaceAllAppend | server/client/assets/js/ui.js:36-40 | replacing a one-character pattern distributes over concatenation |
| Html.EscapeHtml | server/client/assets/js/ui.js:34-41 | the output is never shorter than the input, and text with none of the five special characters is returned unchanged |
| Html.EscapeChar | server/client/assets/js/ui.js:36-40 | a character is kept as itself exactly when it is not one of the five special characters |
| Html.EscapeEach | server/client/assets/js/ui.js:36-40 | escaping character by character gives text with no markup character in which every `&` opens one of the five entities |
| Html.EscapeAppend | server/client/assets/js/ui.js:36-40 | escape(a + b) == escape(a) + escape(b) |
| Html.EscapeOneChar | server/client/assets/js/ui.js:36-40 | on one character the five passes give that character's own entity or the character itself |
| Html.EscapeIsPerCharacter | server/client/assets/js/ui.js:36-40 | the five passes equal per-character escaping, so no entity introduced by one pass is rewritten by a later one |
| Html.EscapedIsSafe | server/client/assets/js/ui.js:36-40 | the output has no `<`, `>`, `"` or `'`, and every `&` in it begins `&amp;`, `&lt;`, `&gt;`, `&quot;` or `&#039;` |
| Html.EscapePlain | server/client/assets/js/ui.js:35-40 | text with none of the five special characters passes through unchanged |
| Html.UnescapeEscape | server/client/assets/js/ui.js:36-40 | decoding the five entities gives back exactly the original text, so escaping loses nothing |
| Html.EscapeNotIdempotent | server/client/assets/js/ui.js:36 | escape("&") is `&amp;`, and escaping that again gives `&amp;amp;` |
| PlaylistView.SortByRating | server/client/assets/js/playlists.js:57 | the result is a permutation of the input with ratings from highest to lowest |
| PlaylistView.SortByRatingStable | server/client/assets/js/playlists.js:57 | for every rating value, the items with that rating keep their input order |
| PlaylistView.SortByRatingSorted | server/client/assets/js/playlists.js:57 | a list already ordered by rating comes back unchanged |
| PlaylistView.SortItems | server/client/assets/js/playlists.js:55-59 | the result is always a permutation; the `"rating"` mode orders by rating, and any other mode returns the items unchanged |
| PlaylistView.FilterByTitle | server/client/assets/js/playlists.js:73 | keeps, in order, exactly the items whose lower-cased title contains the lower-cased filter text |
| PlaylistView.FilterByTitleAppend | server/client/assets/js/playlists.js:73 | the title filter distributes over concatenation, so every matching item keeps all of its copies |
| PlaylistView.EmptyFilterKeepsAll | server/client/assets/js/playlists.js:70-73 | an empty or absent filter keeps every item in order |
| PlaylistView.FilterIdempotent | server/client/assets/js/playlists.js:73 | filtering a filtered list again with the same text changes nothing |
| PlaylistView.VisibleItems | server/client/assets/js/playlists.js:70-74 | the shown items are a permutation of the filtered items; in the `"rating"` mode they are ordered by rating, with each rating's items in filtered order; in any other mode they are the filtered items as they are |
| PlaylistView.HasId | server/client/assets/js/playlists.js:189 | true exactly when some loaded playlist has the id |
| PlaylistView.FirstId | server/client/assets/js/playlists.js:27 | the first playlist's id when there is one and it is non-empty, otherwise null |
| PlaylistView.ChooseInitialActive | server/client/assets/js/playlists.js:187-191 | the query-string id when it names a loaded playlist, else the first playlist's id, else null; a chosen id always names a loaded playlist |
| PlaylistView.RefreshActive | server/client/assets/js/playlists.js:26-28 | an active id still loaded, or no id, is kept; a stale one falls back to the first id; afterwards a non-empty id names a loaded playlist |
| PlaylistView.RefreshIdempotent | server/client/assets/js/playlists.js:26-28 | a second refresh over the same list changes nothing |
| PlaylistView.ActiveAfterDelete | server/client/assets/js/playlists.js:149 | after deleting the active playlist, the first remaining playlist's id when there is one and it is non-empty, otherwise null |
| PlaylistView.DeletedIdNotActive | server/client/assets/js/playlists.js:147-149 | after a delete through the server and a reload, the deleted id is never the active one |
| Text.Lower | server/server.js:72 | same length; no upper-case ASCII letter remains; each one becomes the letter 32 code points above it, and every other character is kept |
| Text.LowerIdempotent | server/server.js:72 | lower-casing an already lower-cased name changes nothing |
| Text.TrimEmptyIff | server/server.js:142 | the trimmed name is empty exactly when every character is whitespace |
| Text.Includes | server/client/assets/js/playlists.js:73 | true exactly when the needle occurs at some position of the text |
| Text.NatToDecimal | server/client/assets/js/youtube.js:16 | the decimal text of n is non-empty, all digits, has no leading zero, and reads back as n |

## Left out

- File I/O in `server/lib/storage.js` is not modelled: reading and writing
  the JSON files, the temp-file-and-rename write, and JSON encoding. Each
  handler takes the loaded collection and returns the one it would save.
- Concurrency is not modelled. Handlers run one at a time here. In the
  running server two requests can interleave between load and save, so one
  write can overwrite the other. The model does not capture that lost update.
- `hashPassword` (SHA-256) is a function parameter. `crypto.randomBytes`,
  `Date.now()`, `new Date().toISOString()` and `uid("pl")` are inputs. A
  fresh playlist id is required to differ from every stored id.
- Express plumbing is not modelled: CORS, static files, the health route,
  body parsing, cookie parsing, and setting and clearing the `sid` cookie.
- Client DOM rendering, modals, toasts, `fetch` wrappers and the
  query-string updates of `setPlaylistIdQS` are not modelled.
- `server/client/assets/js/search.js`, `server/client/assets/js/auth.js`,
  `server/client/assets/js/header.js` and the client `storage.js` are not
  part of this model.
- Accounts.ValidatePassword: counts the length in characters, not UTF-16
  code units. A password with characters outside the Basic Multilingual
  Plane can differ at the 6-character boundary.
- Accounts.FindIgnoringCase: lower-cases ASCII letters only, as `Text.Lower`
  does everywhere. JavaScript's Unicode `toLowerCase` maps more characters.
- PlaylistView.FilterByTitle: uses the same ASCII-only lower-casing.
- Text.Lower: lower-cases ASCII letters only. JavaScript's `toLowerCase`
  also maps accented and other non-ASCII capitals, and that is not modelled.
- Html.EscapeHtml: takes a string. The `String(s)` coercion of a non-string
  argument is not modelled.
- Accounts.ValidatePassword: takes the password as a string. The source's
  `typeof pw !== "string"` branch, which answers "Password must be at least
  6 characters." for a JSON number such as 1234567, has no counterpart.
- Accounts.Register: takes every body field as an optional string. The
  `String(...)` coercion of a non-string username, first name or image URL
  is not modelled.
- Accounts.Login: takes the username as an optional string. The
  `String(username)` coercion of a non-string value is not modelled.
- Duration.Normalize: takes the view count as an optional integer. The
  `Number(v.views || 0)` coercion of a string or other JSON value, and a NaN
  result, are not modelled.
- PlaylistStore.Create: takes the name as an optional string. The
  `String(name)` coercion of a non-string name is not modelled, so a JSON
  `0` or `false` name, which the source refuses with 400, has no
  counterpart.
- PlaylistStore.AddItem: takes `durationSec` and `views` as integers and
  `rating` as a real. A fractional duration or view count, which the source
  stores as given, is not modelled. The source's `Number(...)` and
  `String(...)` coercions of arbitrary JSON values are not modelled either,
  and neither are NaN results.
- PlaylistView.SortByRating: every item has a numeric rating, so the
  source's `rating || 0` for a missing or NaN rating is not modelled.
- PlaylistView.SortItems: does not model the `"alpha"` mode. That mode
  orders titles with `localeCompare`, whose locale collation has no
  definition here, so the mode is excluded by a precondition.
- PlaylistView.VisibleItems: excludes the `"alpha"` mode for the same reason.
- Duration.FormatDuration: works on unbounded integers. It does not model
  the `sec | 0` truncation to 32 bits.
- Duration.FormatDuration: prints the minute count in plain decimal. For
  huge values JavaScript's `String` switches to exponent notation, and that
  is not modelled.
- Duration.DurationOfGroups: counts exactly. `parseInt` loses precision
  above 2^53, and that is not modelled.
- Sessions have no expiry in the source, and the model adds none.
  `createdAt` is recorded and never read.

=== FILE: accounts.dfy ===
/**
 User accounts (server/server.js): the password policy, registration, login,
 logout and `/api/me`. The user collection is the persisted `users.json`
 list, read and replaced whole by each handler. `hash` stands for
 `hashPassword` (SHA-256 hex of the password), a deterministic function the
 model does not look inside.
 */
module Accounts {
  import opened Js
  import opened Http
  import opened Text
  import opened Sessions

  datatype User = User(username: string, passwordHash: string, firstName: string, imageUrl: string)

  /** `publicUser(u)`: the part of a user sent to clients; the digest never leaves the server. */
  datatype PublicUser = PublicUser(username: string, firstName: string, imageUrl: string)

  function PublicView(u: User): (r: PublicUser)
    ensures r.username == u.username && r.firstName == u.firstName && r.imageUrl == u.imageUrl
  {
    PublicUser(u.username, u.firstName, u.imageUrl)
  }

  // ---------- Password policy ----------

  const MinPasswordLength: nat := 6

  /** The four rules of the policy, in the order they are checked. */
  datatype Rule = MinLength | HasLetter | HasDigit | HasSpecial

  const RuleOrder: seq<Rule> := [MinLength, HasLetter, HasDigit, HasSpecial]

  function Message(rule: Rule): string {
    match rule
    case MinLength => "Password must be at least 6 characters."
    case HasLetter => "Password must contain at least one letter."
    case HasDigit => "Password must contain at least one digit."
    case HasSpecial => "Password must contain at least one special character."
  }

  /** What each rule demands, stated over character positions. */
  ghost predicate Satisfies(pw: string, rule: Rule) {
    match rule
    case MinLength => |pw| >= MinPasswordLength
    case HasLetter => exists i :: 0 <= i < |pw| && IsAsciiLetter(pw[i])
    case HasDigit => exists i :: 0 <= i < |pw| && IsDigit(pw[i])
    case HasSpecial => exists i :: 0 <= i < |pw| && !IsAsciiAlnum(pw[i])
  }

  /** The character classes `[A-Za-z]`, `[0-9]` and `[^A-Za-z0-9]`. */
  datatype CharClass = Letter | Digit | NonAlnum

  predicate InClass(c: char, k: CharClass) {
    match k
    case Letter => IsAsciiLetter(c)
    case Digit => IsDigit(c)
    case NonAlnum => !IsAsciiAlnum(c)
  }

  /** `/[class]/.test(s)`: a left-to-right scan for one character of the class. */
  function Scan(s: string, k: CharClass): (r: bool)
    ensures r <==> exists i :: 0 <= i < |s| && InClass(s[i], k)
  {
    if |s| == 0 then false
    else if InClass(s[0], k) then true
    else
      var r := Scan(s[1..], k);
      assert forall i :: 1 <= i < |s| ==> s[i] == s[1..][i - 1];
      r
  }

  /**
   `validatePassword(pw)`: no message exactly when every rule holds, and
   otherwise the message of the first rule (in policy order) that fails.
   */
  function ValidatePassword(pw: string): (r: Option<string>)
    ensures r.None? <==> forall k :: 0 <= k < |RuleOrder| ==> Satisfies(pw, RuleOrder[k])
    ensures r.Some? ==> (exists k :: (0 <= k < |RuleOrder| && !Satisfies(pw, RuleOrder[k])
      && r.value == Message(RuleOrder[k])
      && (forall j :: 0 <= j < k ==> Satisfies(pw, RuleOrder[j]))))
  {
    if |pw| < MinPasswordLength then
      assert !Satisfies(pw, RuleOrder[0]);
      Some(Message(MinLength))
    else if !Scan(pw, Letter) then
      assert !Satisfies(pw, RuleOrder[1]) && Satisfies(pw, RuleOrder[0]);
      Some(Message(HasLetter))
    else if !Scan(pw, Digit) then
      assert !Satisfies(pw, RuleOrder[2]) && Satisfies(pw, RuleOrder[0]) && Satisfies(pw, RuleOrder[1]);
      Some(Message(HasDigit))
    else if !Scan(pw, NonAlnum) then
      assert !Satisfies(pw, RuleOrder[3]) && Satisfies(pw, RuleOrder[0]) && Satisfies(pw, RuleOrder[1])
        && Satisfies(pw, RuleOrder[2]);
      Some(Message(HasSpecial))
    else
      assert Satisfies(pw, RuleOrder[0]) && Satisfies(pw, RuleOrder[1]) && Satisfies(pw, RuleOrder[2])
        && Satisfies(pw, RuleOrder[3]);
      None
  }

  // ---------- Looking users up ----------

  /** Usernames compare case-insensitively (ASCII lower-casing). */
  predicate SameNameIgnoringCase(a: string, b: string) {
    Lower(a) == Lower(b)
  }

  /** `users.find(u => u.username.toLowerCase() === name.toLowerCase())`, as an index. */
  function FindIgnoringCase(users: seq<User>, name: string): (r: Option<nat>)
    ensures r.Some? ==> (r.value < |users| && SameNameIgnoringCase(users[r.value].username, name)
      && forall j :: 0 <= j < r.value ==> !SameNameIgnoringCase(users[j].username, name))
    ensures r.None? <==> forall j :: 0 <= j < |users| ==> !SameNameIgnoringCase(users[j].username, name)
  {
    if |users| == 0 then None
    else if SameNameIgnoringCase(users[0].username, name) then Some(0)
    else match FindIgnoringCase(users[1..], name)
      case None => None
      case Some(i) => Some(i + 1)
  }

  /** `users.find(u => u.username === name)`, as an index. */
  function FindExact(users: seq<User>, name: string): (r: Option<nat>)
    ensures r.Some? ==> (r.value < |users| && users[r.value].username == name
      && forall j :: 0 <= j < r.value ==> users[j].username != name)
    ensures r.None? <==> forall j :: 0 <= j < |users| ==> users[j].username != name
  {
    if |users| == 0 then None
    else if users[0].username == name then Some(0)
    else match FindExact(users[1..], name)
      case None => None
      case Some(i) => Some(i + 1)
  }

  /** The users collection never holds two names that differ only in case. */
  ghost predicate UniqueIgnoringCase(users: seq<User>) {
    forall i, j :: 0 <= i < j < |users| ==> !SameNameIgnoringCase(users[i].username, users[j].username)
  }

  // ---------- Register ----------

  datatype RegisterRequest = RegisterRequest(
    username: Option<string>, password: Option<string>, confirmPassword: Option<string>,
    firstName: Option<string>, imageUrl: Option<string>)

  const MsgAllFieldsRequired: string := "All fields are required."
  const MsgPasswordsDiffer: string := "Passwords do not match."
  const MsgUsernameTaken: string := "Username already exists."

  predicate AnyFieldMissing(req: RegisterRequest) {
    Falsy(req.username) || Falsy(req.password) || Falsy(req.confirmPassword)
    || Falsy(req.firstName) || Falsy(req.imageUrl)
  }

  /**
   `POST /api/auth/register`. The checks come in a fixed order and the first
   one that fails decides the answer; only a request that passes all of them
   changes the collection, by appending exactly one user.
   */
  function Register(users: seq<User>, hash: string -> string, req: RegisterRequest): (r: Step<(), seq<User>>)
    ensures r.reply.Fail? ==> r.state == users
    ensures AnyFieldMissing(req) ==> r.reply == Fail(BadRequest, MsgAllFieldsRequired)
    ensures !AnyFieldMissing(req) && req.password != req.confirmPassword ==>
      r.reply == Fail(BadRequest, MsgPasswordsDiffer)
    ensures (!AnyFieldMissing(req) && req.password == req.confirmPassword
      && ValidatePassword(req.password.value).Some?) ==>
      r.reply == Fail(BadRequest, ValidatePassword(req.password.value).value)
    ensures (!AnyFieldMissing(req) && req.password == req.confirmPassword
      && ValidatePassword(req.password.value).None?
      && (exists i :: 0 <= i < |users| && SameNameIgnoringCase(users[i].username, req.username.value))) ==>
      r.reply == Fail(Conflict, MsgUsernameTaken)
    ensures r.reply.Ok? <==> (!AnyFieldMissing(req) && req.password == req.confirmPassword
      && ValidatePassword(req.password.value).None?
      && forall i :: 0 <= i < |users| ==> !SameNameIgnoringCase(users[i].username, req.username.value))
    ensures r.reply.Ok? ==> r.state == users + [User(req.username.value, hash(req.password.value),
      req.firstName.value, req.imageUrl.value)]
  {
    if AnyFieldMissing(req) then Step(Fail(BadRequest, MsgAllFieldsRequired), users)
    else if req.password != req.confirmPassword then Step(Fail(BadRequest, MsgPasswordsDiffer), users)
    else match ValidatePassword(req.password.value)
      case Some(msg) => Step(Fail(BadRequest, msg), users)
      case None =>
        if FindIgnoringCase(users, req.username.value).Some? then Step(Fail(Conflict, MsgUsernameTaken), users)
        else
          var user := User(req.username.value, hash(req.password.value), req.firstName.value, req.imageUrl.value);
          Step(Ok(()), users + [user])
  }

  /** Registration keeps usernames unique up to case. */
  lemma RegisterKeepsNamesUnique(users: seq<User>, hash: string -> string, req: RegisterRequest)
    requires UniqueIgnoringCase(users)
    ensures UniqueIgnoringCase(Register(users, hash, req).state)
  {
  }

  /** A second registration whose username differs from an existing one only in case is a conflict. */
  lemma CaseVariantConflicts(users: seq<User>, hash: string -> string, req: RegisterRequest, other: RegisterRequest)
    requires Register(users, hash, req).reply.Ok?
    requires !AnyFieldMissing(other) && other.password == other.confirmPassword
    requires ValidatePassword(other.password.value).None?
    requires SameNameIgnoringCase(other.username.value, req.username.value)
    ensures var s := Register(users, hash, req).state;
      Register(s, hash, other) == Step(Fail(Conflict, MsgUsernameTaken), s)
  {
    var s := Register(users, hash, req).state;
    assert SameNameIgnoringCase(s[|users|].username, other.username.value);
  }

  // ---------- Login / logout / me ----------

  datatype LoginRequest = LoginRequest(username: Option<string>, password: Option<string>)

  /** A successful login: the public view of the user and the new session token (set as the `sid` cookie). */
  datatype LoginOk = LoginOk(user: PublicUser, sid: Token)

  const MsgCredentialsRequired: string := "Username and password required."
  const MsgInvalidCredentials: string := "Invalid username or password."

  /**
   `POST /api/auth/login`. The user is found case-insensitively; an unknown
   name and a wrong password get the same 401 answer, so the reply does not
   reveal which usernames exist. On success a session is created for the
   username as stored, not as typed.
   */
  function Login(users: seq<User>, sessions: SessionMap, hash: string -> string, req: LoginRequest,
                 random: seq<Byte>, now: int): (r: Step<LoginOk, SessionMap>)
    requires |random| == TokenBytes
    ensures r.reply.Fail? ==> r.state == sessions
    ensures Falsy(req.username) || Falsy(req.password) ==> r.reply == Fail(BadRequest, MsgCredentialsRequired)
    ensures !Falsy(req.username) && !Falsy(req.password) && r.reply.Fail? ==>
      r.reply == Fail(Unauthorized, MsgInvalidCredentials)
    ensures r.reply.Ok? <==> (!Falsy(req.username) && !Falsy(req.password)
      && exists i :: (0 <= i < |users| && SameNameIgnoringCase(users[i].username, req.username.value)
        && (forall j :: 0 <= j < i ==> !SameNameIgnoringCase(users[j].username, req.username.value))
        && hash(req.password.value) == users[i].passwordHash))
    ensures r.reply.Ok? ==>
      var i := FindIgnoringCase(users, req.username.value).value;
      var c := CreateSession(sessions, users[i].username, random, now);
      r.reply.value == LoginOk(PublicView(users[i]), c.sid) && r.state == c.store
  {
    if Falsy(req.username) || Falsy(req.password) then Step(Fail(BadRequest, MsgCredentialsRequired), sessions)
    else match FindIgnoringCase(users, req.username.value)
      case None => Step(Fail(Unauthorized, MsgInvalidCredentials), sessions)
      case Some(i) =>
        if hash(req.password.value) != users[i].passwordHash then
          Step(Fail(Unauthorized, MsgInvalidCredentials), sessions)
        else
          var c := CreateSession(sessions, users[i].username, random, now);
          Step(Ok(LoginOk(PublicView(users[i]), c.sid)), c.store)
  }

  lemma {:induction false} FindAfterAppend(users: seq<User>, u: User, name: string)
    requires FindIgnoringCase(users, name).None?
    requires SameNameIgnoringCase(u.username, name)
    ensures FindIgnoringCase(users + [u], name) == Some(|users|)
  {
    if |users| > 0 {
      assert (users + [u])[1..] == users[1..] + [u];
      FindAfterAppend(users[1..], u, name);
    }
  }

  /**
   After a successful registration, logging in with the same password and
   any spelling of the username that differs only in case succeeds, and the
   session is issued for the username as registered.
   */
  lemma RegisterThenLogin(users: seq<User>, hash: string -> string, req: RegisterRequest, typed: string,
                          sessions: SessionMap, random: seq<Byte>, now: int)
    requires Register(users, hash, req).reply.Ok?
    requires typed != "" && SameNameIgnoringCase(typed, req.username.value)
    requires |random| == TokenBytes
    ensures var l := Login(Register(users, hash, req).state, sessions, hash, LoginRequest(Some(typed), req.password),
                           random, now);
      && l.reply.Ok?
      && l.reply.value.user.username == req.username.value
      && l.state[l.reply.value.sid].username == req.username.value
  {
    var s := Register(users, hash, req).state;
    FindAfterAppend(users, s[|users|], typed);
  }

  /** `POST /api/auth/logout`: forgets the cookie's session, if there is one, and always succeeds. */
  function Logout(sessions: SessionMap, cookie: Option<Token>): (r: Step<(), SessionMap>)
    ensures r.reply.Ok?
    ensures GetSession(r.state, cookie).None?
    ensures forall t :: Some(t) != cookie ==> GetSession(r.state, Some(t)) == GetSession(sessions, Some(t))
  {
    if Falsy(cookie) then Step(Ok(()), sessions)
    else Step(Ok(()), DeleteSession(sessions, cookie.value))
  }

  /**
   `GET /api/me` behind the gate: the acting username is looked up exactly
   (no case folding); a session whose user is gone answers 401.
   */
  function Me(users: seq<User>, username: string): (r: Reply<PublicUser>)
    ensures r.Ok? <==> exists i :: 0 <= i < |users| && users[i].username == username
    ensures r.Ok? ==> (r.value.username == username
      && exists i :: 0 <= i < |users| && r.value == PublicView(users[i]))
    ensures r.Ok? ==> r.value == PublicView(users[FindExact(users, username).value])
    ensures r.Fail? ==> r == Fail(Unauthorized, NotAuthenticated)
  {
    match FindExact(users, username)
    case None => Fail(Unauthorized, NotAuthenticated)
    case Some(i) => Ok(PublicView(users[i]))
  }
}

=== FILE: api.dfy ===
/**
 The authenticated routes (server/server.js behind `requireAuth`): the gate
 resolves the session cookie first, and only then does the route handler run,
 with the session's username as the acting identity. No route carries a
 username of its own, so the identity cannot come from the request body.
 */
module Api {
  import opened Js
  import opened Http
  import opened Sessions
  import opened Accounts
  import opened PlaylistStore
  import opened StoreLaws

  /** The six playlist routes with their path parameters and body fields. */
  datatype Route =
    | ListRoute
    | CreateRoute(name: Option<string>)
    | DeleteRoute(id: string)
    | AddItemRoute(id: string, item: Option<ItemPayload>)
    | SetRatingRoute(id: string, videoId: string, rating: JsNumber)
    | RemoveItemRoute(id: string, videoId: string)

  /** `{playlists}`, `{playlist}` or just `{ok: true}`. */
  datatype Payload = Playlists(list: Store) | One(playlist: Playlist) | Done

  function Lift<T>(s: Step<T, Store>, wrap: T -> Payload): Step<Payload, Store> {
    match s.reply
    case Ok(v) => Step(Ok(wrap(v)), s.state)
    case Fail(code, msg) => Step(Fail(code, msg), s.state)
  }

  /**
   The reply and the store a route leaves are those of the handler it ran: the
   same store, success exactly when the handler succeeds, and the handler's
   status and message on failure.
   */
  predicate SameOutcome<T>(r: Step<Payload, Store>, s: Step<T, Store>) {
    && r.state == s.state
    && (r.reply.Ok? <==> s.reply.Ok?)
    && (s.reply.Fail? ==> r.reply == Fail(s.reply.status, s.reply.error))
  }

  /** The route handler proper, run for the acting `user`. */
  function Dispatch(all: Store, user: string, route: Route, freshId: string, now: string): (r: Step<Payload, Store>)
    requires forall j :: 0 <= j < |all| ==> all[j].id != freshId
    ensures r.reply.Fail? ==> r.state == all && (r.reply.status == BadRequest || r.reply.status == NotFound)
    ensures route.ListRoute? ==> r == Step(Ok(Playlists(Mine(all, user))), all)
    ensures r.reply.Ok? && route.DeleteRoute? ==> r.reply.value == Done
    ensures r.reply.Ok? && !route.ListRoute? && !route.DeleteRoute? ==>
      r.reply.value.One? && r.reply.value.playlist.username == user
    ensures route.CreateRoute? ==> var s := Create(all, user, route.name, freshId, now);
      SameOutcome(r, s) && (s.reply.Ok? ==> r.reply == Ok(One(s.reply.value)))
    ensures route.DeleteRoute? ==> var s := DeletePlaylist(all, user, route.id);
      SameOutcome(r, s)
    ensures route.AddItemRoute? ==> var s := AddItem(all, user, route.id, route.item, now);
      SameOutcome(r, s) && (s.reply.Ok? ==> r.reply == Ok(One(s.reply.value)))
    ensures route.SetRatingRoute? ==> var s := SetRating(all, user, route.id, route.videoId, route.rating);
      SameOutcome(r, s) && (s.reply.Ok? ==> r.reply == Ok(One(s.reply.value)))
    ensures route.RemoveItemRoute? ==> var s := RemoveItem(all, user, route.id, route.videoId);
      SameOutcome(r, s) && (s.reply.Ok? ==> r.reply == Ok(One(s.reply.value)))
  {
    match route
    case ListRoute => Lift(List(all, user), l => Playlists(l))
    case CreateRoute(name) => Lift(Create(all, user, name, freshId, now), p => One(p))
    case DeleteRoute(id) => Lift(DeletePlaylist(all, user, id), _ => Done)
    case AddItemRoute(id, item) => Lift(AddItem(all, user, id, item, now), p => One(p))
    case SetRatingRoute(id, videoId, rating) => Lift(SetRating(all, user, id, videoId, rating), p => One(p))
    case RemoveItemRoute(id, videoId) => Lift(RemoveItem(all, user, id, videoId), p => One(p))
  }

  /**
   A playlist request end to end. Without a resolvable session the answer is
   401 and the store is untouched (the handler never runs); otherwise the
   handler runs for the username recorded in the session.
   */
  function Handle(sessions: SessionMap, cookie: Option<Token>, all: Store, route: Route,
                  freshId: string, now: string): (r: Step<Payload, Store>)
    requires forall j :: 0 <= j < |all| ==> all[j].id != freshId
    ensures (Falsy(cookie) || cookie.value !in sessions) ==> r == Step(Fail(Unauthorized, NotAuthenticated), all)
    ensures (!Falsy(cookie) && cookie.value in sessions) ==>
      r == Dispatch(all, sessions[cookie.value].username, route, freshId, now)
  {
    match RequireAuth(sessions, cookie)
    case Fail(code, msg) => Step(Fail(code, msg), all)
    case Ok(auth) => Dispatch(all, auth.username, route, freshId, now)
  }

  /** `GET /api/me` end to end. */
  function HandleMe(sessions: SessionMap, cookie: Option<Token>, users: seq<User>): (r: Reply<PublicUser>)
    ensures (Falsy(cookie) || cookie.value !in sessions) ==> r == Fail(Unauthorized, NotAuthenticated)
    ensures r.Ok? ==> r.value.username == sessions[cookie.value].username
    ensures !Falsy(cookie) && cookie.value in sessions ==> r == Me(users, sessions[cookie.value].username)
  {
    match RequireAuth(sessions, cookie)
    case Fail(code, msg) => Fail(code, msg)
    case Ok(auth) => Me(users, auth.username)
  }

  /** The outcome depends on the request only through the username its session resolves to. */
  lemma IdentityFromSessionOnly(s1: SessionMap, c1: Option<Token>, s2: SessionMap, c2: Option<Token>,
                                all: Store, route: Route, freshId: string, now: string)
    requires forall j :: 0 <= j < |all| ==> all[j].id != freshId
    requires RequireAuth(s1, c1).Ok? && RequireAuth(s2, c2).Ok?
    requires RequireAuth(s1, c1).value.username == RequireAuth(s2, c2).value.username
    ensures Handle(s1, c1, all, route, freshId, now) == Handle(s2, c2, all, route, freshId, now)
  {
  }

  /**
   Per-user isolation: whatever request arrives, every user other than the
   one the session names (every user, when there is no session) sees exactly
   the playlists they saw before.
   */
  lemma HandleIsolatesOwners(sessions: SessionMap, cookie: Option<Token>, all: Store, route: Route,
                             freshId: string, now: string, u: string)
    requires forall j :: 0 <= j < |all| ==> all[j].id != freshId
    requires RequireAuth(sessions, cookie).Ok? ==> u != RequireAuth(sessions, cookie).value.username
    ensures Mine(Handle(sessions, cookie, all, route, freshId, now).state, u) == Mine(all, u)
  {
    if RequireAuth(sessions, cookie).Ok? {
      var user := RequireAuth(sessions, cookie).value.username;
      match route
      case ListRoute =>
      case CreateRoute(name) =>
        var c := Create(all, user, name, freshId, now);
        if c.reply.Ok? {
          MineAppend(all, [c.reply.value], u);
        }
      case DeleteRoute(id) =>
        MineWithout(all, user, id, u);
      case AddItemRoute(id, item) =>
        var a := AddItem(all, user, id, item, now);
        if a.reply.Ok? {
          var i := FindOwned(all, user, id).value;
          MineUpdate(all, i, a.state[i], u);
          assert a.state == all[i := a.state[i]];
        }
      case SetRatingRoute(id, videoId, rating) =>
        var a := SetRating(all, user, id, videoId, rating);
        if a.reply.Ok? {
          var i := FindOwned(all, user, id).value;
          MineUpdate(all, i, a.state[i], u);
          assert a.state == all[i := a.state[i]];
        }
      case RemoveItemRoute(id, videoId) =>
        var a := RemoveItem(all, user, id, videoId);
        if a.reply.Ok? {
          var i := FindOwned(all, user, id).value;
          MineUpdate(all, i, a.state[i], u);
          assert a.state == all[i := a.state[i]];
        }
    }
  }

  /** Every request keeps playlist ids unique and each playlist free of duplicate videos. */
  lemma HandleKeepsWellFormed(sessions: SessionMap, cookie: Option<Token>, all: Store, route: Route,
                              freshId: string, now: string)
    requires forall j :: 0 <= j < |all| ==> all[j].id != freshId
    requires WellFormed(all)
    ensures WellFormed(Handle(sessions, cookie, all, route, freshId, now).state)
  {
    if RequireAuth(sessions, cookie).Ok? {
      var user := RequireAuth(sessions, cookie).value.username;
      match route
      case ListRoute =>
      case CreateRoute(name) => CreateKeepsWellFormed(all, user, name, freshId, now);
      case DeleteRoute(id) => DeleteKeepsWellFormed(all, user, id);
      case AddItemRoute(id, item) => AddItemKeepsWellFormed(all, user, id, item, now);
      case SetRatingRoute(id, videoId, rating) => SetRatingKeepsWellFormed(all, user, id, videoId, rating);
      case RemoveItemRoute(id, videoId) => RemoveItemKeepsWellFormed(all, user, id, videoId);
    }
  }
}

=== FILE: duration.dfy ===
/**
 Video metadata normalisation (server/client/assets/js/youtube.js): reading
 the time-only ISO 8601 duration `PT[nH][nM][nS]` (the designator format of
 section 4.4.3.2 of ISO 8601:2004, restricted to hours, minutes and seconds
 with whole-number components) into seconds, rendering seconds as `m:ss`,
 and mapping raw search results onto the item shape.
 */
module Duration {
  import opened Js
  import opened Text

  // ---------- The pattern /^PT(?:(\d+)H)?(?:(\d+)M)?(?:(\d+)S)?$/ ----------

  /** The three optional capture groups: the digits before `H`, `M` and `S`. */
  datatype Groups = Groups(hours: Option<string>, minutes: Option<string>, seconds: Option<string>)

  predicate ValidGroup(g: Option<string>) {
    g.None? || (|g.value| > 0 && AllDigits(g.value))
  }

  predicate ValidGroups(g: Groups) {
    ValidGroup(g.hours) && ValidGroup(g.minutes) && ValidGroup(g.seconds)
  }

  function Part(g: Option<string>, designator: char): string {
    match g
    case None => ""
    case Some(digits) => digits + [designator]
  }

  /** The string a choice of groups spells: the language of the pattern, one string per valid choice. */
  function Render(g: Groups): string {
    "PT" + Part(g.hours, 'H') + Part(g.minutes, 'M') + Part(g.seconds, 'S')
  }

  /** The longest run of decimal digits at the front of `s` (what `\d+` consumes). */
  function LeadingDigits(s: string): (r: string)
    ensures |r| <= |s| && r == s[..|r|]
    ensures AllDigits(r)
    ensures |r| < |s| ==> !IsDigit(s[|r|])
  {
    if |s| > 0 && IsDigit(s[0]) then
      var rest := LeadingDigits(s[1..]);
      assert s[..|rest| + 1] == [s[0]] + rest;
      [s[0]] + rest
    else []
  }

  /** One optional group `(?:(\d+)L)?`: takes the digits and the designator, or takes nothing. */
  function Group(s: string, designator: char): (r: (Option<string>, string))
    ensures r.0.None? ==> r.1 == s
    ensures r.0.Some? ==> |r.0.value| > 0 && AllDigits(r.0.value) && s == r.0.value + [designator] + r.1
  {
    var digits := LeadingDigits(s);
    if 0 < |digits| < |s| && s[|digits|] == designator then
      assert s == digits + [designator] + s[|digits| + 1..];
      (Some(digits), s[|digits| + 1..])
    else (None, s)
  }

  /**
   `RegExp.prototype.exec` of the duration pattern, anchored at both ends.
   When it matches, the groups it reports are well formed and spell the
   input exactly.
   */
  function Match(d: string): (r: Option<Groups>)
    ensures r.Some? ==> ValidGroups(r.value) && Render(r.value) == d
  {
    if |d| < 2 || d[0] != 'P' || d[1] != 'T' then None
    else
      var gh := Group(d[2..], 'H');
      var gm := Group(gh.1, 'M');
      var gs := Group(gm.1, 'S');
      if gs.1 != "" then None
      else
        var g := Groups(gh.0, gm.0, gs.0);
        RenderSplit(g, d, gh.1, gm.1);
        Some(g)
  }

  lemma RenderSplit(g: Groups, d: string, r1: string, r2: string)
    requires |d| >= 2 && d[0] == 'P' && d[1] == 'T'
    requires d[2..] == Part(g.hours, 'H') + r1
    requires r1 == Part(g.minutes, 'M') + r2
    requires r2 == Part(g.seconds, 'S')
    ensures Render(g) == d
  {
    assert d == "PT" + d[2..];
  }

  /** `parseInt(m[i] || "0", 10)`: an absent group counts as zero. */
  function GroupValue(g: Option<string>): nat
    requires ValidGroup(g)
  {
    match g
    case None => 0
    case Some(digits) => DigitsValue(digits)
  }

  /**
   `iso8601DurationToSeconds(d)`: 0 when the pattern does not match;
   otherwise hours * 3600 + minutes * 60 + seconds of the groups it reports.
   */
  function Iso8601DurationToSeconds(d: string): (r: nat)
    ensures Match(d).None? ==> r == 0
    ensures Match(d).Some? ==>
      r == GroupValue(Match(d).value.hours) * 3600 + GroupValue(Match(d).value.minutes) * 60
        + GroupValue(Match(d).value.seconds)
  {
    match Match(d)
    case None => 0
    case Some(g) => GroupValue(g.hours) * 3600 + GroupValue(g.minutes) * 60 + GroupValue(g.seconds)
  }

  // ---------- The pattern accepts every string it should ----------

  lemma LeadingDigitsOf(digits: string, c: char, rest: string)
    requires AllDigits(digits) && !IsDigit(c)
    ensures LeadingDigits(digits + [c] + rest) == digits
  {
    var s := digits + [c] + rest;
    assert forall k :: 0 <= k < |digits| ==> s[k] == digits[k];
    assert s[|digits|] == c;
    assert s[..|digits|] == digits;
  }

  lemma GroupOfPart(g: Option<string>, designator: char, rest: string)
    requires ValidGroup(g) && !IsDigit(designator)
    requires g.None? ==> Group(rest, designator).0.None?
    ensures Group(Part(g, designator) + rest, designator) == (g, rest)
  {
    if g.Some? {
      LeadingDigitsOf(g.value, designator, rest);
      var s := Part(g, designator) + rest;
      assert s == g.value + [designator] + rest;
      assert s[|g.value| + 1..] == rest;
    } else {
      assert Part(g, designator) + rest == rest;
    }
  }

  /** A group for one designator never swallows the digits written for a later one. */
  lemma GroupMisses(g: Option<string>, other: char, rest: string, designator: char)
    requires ValidGroup(g) && !IsDigit(other) && other != designator
    requires g.None? ==> Group(rest, designator).0.None?
    ensures Group(Part(g, other) + rest, designator).0.None?
  {
    if g.Some? {
      LeadingDigitsOf(g.value, other, rest);
      assert (Part(g, other) + rest)[|g.value|] == other;
    } else {
      assert Part(g, other) + rest == rest;
    }
  }

  /** Every well-formed choice of groups is matched, and reported back unchanged. */
  lemma MatchRender(g: Groups)
    requires ValidGroups(g)
    ensures Match(Render(g)) == Some(g)
  {
    var ph, pm, ps := Part(g.hours, 'H'), Part(g.minutes, 'M'), Part(g.seconds, 'S');
    var d := Render(g);
    assert d[2..] == ph + (pm + (ps + ""));
    assert LeadingDigits("") == "";
    GroupMisses(g.seconds, 'S', "", 'M');
    GroupMisses(g.seconds, 'S', "", 'H');
    GroupMisses(g.minutes, 'M', ps + "", 'H');
    GroupOfPart(g.hours, 'H', pm + (ps + ""));
    GroupOfPart(g.minutes, 'M', ps + "");
    GroupOfPart(g.seconds, 'S', "");
  }

  /** On a string of the pattern's language the result is h*3600 + m*60 + s, absent parts counting 0. */
  lemma DurationOfGroups(g: Groups)
    requires ValidGroups(g)
    ensures Iso8601DurationToSeconds(Render(g))
      == GroupValue(g.hours) * 3600 + GroupValue(g.minutes) * 60 + GroupValue(g.seconds)
  {
    MatchRender(g);
  }

  /** Any string outside the pattern's language reads as 0 seconds. */
  lemma DurationOfNonMatch(d: string)
    requires forall g :: ValidGroups(g) ==> Render(g) != d
    ensures Iso8601DurationToSeconds(d) == 0
  {
  }

  /** `"PT"` alone is a match with every group absent: zero seconds. */
  lemma BarePTIsZero()
    ensures Match("PT") == Some(Groups(None, None, None))
    ensures Iso8601DurationToSeconds("PT") == 0
  {
    MatchRender(Groups(None, None, None));
  }

  predicate InDurationAlphabet(c: char) {
    c == 'P' || c == 'T' || c == 'H' || c == 'M' || c == 'S' || IsDigit(c)
  }

  lemma RenderAlphabet(g: Groups)
    requires ValidGroups(g)
    ensures forall i :: 0 <= i < |Render(g)| ==> InDurationAlphabet(Render(g)[i])
  {
    var ph, pm, ps := Part(g.hours, 'H'), Part(g.minutes, 'M'), Part(g.seconds, 'S');
    assert forall i :: 0 <= i < |ph| ==> InDurationAlphabet(ph[i]);
    assert forall i :: 0 <= i < |pm| ==> InDurationAlphabet(pm[i]);
    assert forall i :: 0 <= i < |ps| ==> InDurationAlphabet(ps[i]);
    var r := Render(g);
    assert r == "PT" + ph + pm + ps;
    forall i | 0 <= i < |r|
      ensures InDurationAlphabet(r[i])
    {
      if i < 2 {
      } else if i < 2 + |ph| {
        assert r[i] == ph[i - 2];
      } else if i < 2 + |ph| + |pm| {
        assert r[i] == pm[i - 2 - |ph|];
      } else {
        assert r[i] == ps[i - 2 - |ph| - |pm|];
      }
    }
  }

  /**
   A day, week or year part, a fraction, a sign or any other character
   outside `P T H M S 0-9` makes the whole duration read as 0. (A month
   part such as `P1M` reads as 0 too, but because `T` is missing.)
   */
  lemma DurationWithForeignCharIsZero(d: string, i: nat)
    requires i < |d| && !InDurationAlphabet(d[i])
    ensures Match(d).None?
    ensures Iso8601DurationToSeconds(d) == 0
  {
    match Match(d)
    case None =>
    case Some(g) =>
      RenderAlphabet(g);
      assert false;
  }

  // ---------- formatDuration ----------

  /** `s.padStart(2, "0")` */
  function PadStart2(s: string): string {
    if |s| >= 2 then s else seq(2 - |s|, _ => '0') + s
  }

  lemma PadSeconds(n: nat)
    requires n < 60
    ensures var p := PadStart2(NatToDecimal(n));
      |p| == 2 && AllDigits(p) && DigitsValue(p) == n
  {
    var t := NatToDecimal(n);
    var p := PadStart2(t);
    if n < 10 {
      assert p == ['0'] + t;
      assert p[..1] == ['0'];
      assert p[..1][..0] == [];
    } else {
      assert p == t;
      var q := n / 10;
      assert q < 10;
    }
  }

  /**
   `formatDuration(sec)`: negative input counts as 0; the text is the minute
   count in decimal (unbounded: never rolled into hours), a colon, and the
   remaining seconds as exactly two digits. Reading the two fields back
   gives the clamped number of seconds.
   */
  function FormatDuration(sec: int): (r: string)
    ensures |r| >= 4 && r[|r| - 3] == ':'
    ensures AllDigits(r[..|r| - 3]) && AllDigits(r[|r| - 2..])
    ensures r[..|r| - 3] == NatToDecimal((if sec > 0 then sec else 0) / 60)
    ensures DigitsValue(r[|r| - 2..]) < 60
    ensures DigitsValue(r[..|r| - 3]) * 60 + DigitsValue(r[|r| - 2..]) == (if sec > 0 then sec else 0)
  {
    var s: nat := if sec > 0 then sec else 0;
    var mm := NatToDecimal(s / 60);
    var ss := PadStart2(NatToDecimal(s % 60));
    PadSeconds(s % 60);
    var r := mm + ":" + ss;
    assert r[..|r| - 3] == mm;
    assert r[|r| - 2..] == ss;
    r
  }

  /** `PT{m}M{s}S` reads as m*60 + s seconds. */
  lemma MinutesSecondsDuration(m: nat, s: nat)
    ensures Iso8601DurationToSeconds("PT" + NatToDecimal(m) + "M" + NatToDecimal(s) + "S") == m * 60 + s
  {
    var dm, ds := NatToDecimal(m), NatToDecimal(s);
    var g := Groups(None, Some(dm), Some(ds));
    RenderMinutesSeconds(dm, ds);
    DurationOfGroups(g);
    assert GroupValue(g.minutes) == m && GroupValue(g.seconds) == s;
  }

  lemma RenderMinutesSeconds(dm: string, ds: string)
    requires |dm| > 0 && AllDigits(dm) && |ds| > 0 && AllDigits(ds)
    ensures ValidGroups(Groups(None, Some(dm), Some(ds)))
    ensures Render(Groups(None, Some(dm), Some(ds))) == "PT" + dm + "M" + ds + "S"
  {
    assert Part(None, 'H') == "";
  }

  /** m*60 + s seconds, with s < 60, formats as `{m}:{ss}`. */
  lemma FormatMinutesSeconds(m: nat, s: nat)
    requires s < 60
    ensures FormatDuration(m * 60 + s) == NatToDecimal(m) + ":" + PadStart2(NatToDecimal(s))
  {
    MinutesAndSeconds(m, s);
  }

  /** Reading `PT{m}M{s}S` and formatting it gives back `{m}:{ss}`. */
  lemma ParseThenFormat(m: nat, s: nat)
    requires s < 60
    ensures FormatDuration(Iso8601DurationToSeconds("PT" + NatToDecimal(m) + "M" + NatToDecimal(s) + "S"))
      == NatToDecimal(m) + ":" + PadStart2(NatToDecimal(s))
  {
    calc {
      FormatDuration(Iso8601DurationToSeconds("PT" + NatToDecimal(m) + "M" + NatToDecimal(s) + "S"));
      { MinutesSecondsDuration(m, s); }
      FormatDuration(m * 60 + s);
      { FormatMinutesSeconds(m, s); }
      NatToDecimal(m) + ":" + PadStart2(NatToDecimal(s));
    }
  }

  lemma MinutesAndSeconds(m: nat, s: nat)
    requires s < 60
    ensures (m * 60 + s) / 60 == m && (m * 60 + s) % 60 == s
  {
  }

  // ---------- Search results ----------

  /** One result as the search proxy returns it. */
  datatype RawVideo = RawVideo(videoId: string, title: string, thumbnailUrl: string, duration: string,
                               views: Option<int>)

  /** One result as the client keeps it. */
  datatype Video = Video(videoId: string, title: string, thumbnailUrl: string, durationSec: nat, views: int)

  /** The per-result mapping inside `searchYouTube`. */
  function Normalize(v: RawVideo): (r: Video)
    ensures r.videoId == v.videoId && r.title == v.title && r.thumbnailUrl == v.thumbnailUrl
    ensures v.views.None? ==> r.views == 0
    ensures v.views.Some? ==> r.views == v.views.value
    ensures (exists g :: ValidGroups(g) && Render(g) == v.duration) || r.durationSec == 0
    ensures r.durationSec == Iso8601DurationToSeconds(v.duration)
  {
    Video(v.videoId, v.title, v.thumbnailUrl, Iso8601DurationToSeconds(v.duration), v.views.GetOr(0))
  }

  /** `raw.map(...)`: one normalised result per raw result, in order. */
  function NormalizeAll(raw: seq<RawVideo>): (r: seq<Video>)
    ensures |r| == |raw|
    ensures forall i :: 0 <= i < |raw| ==>
      r[i].videoId == raw[i].videoId && r[i].title == raw[i].title && r[i].thumbnailUrl == raw[i].thumbnailUrl
    ensures forall i :: 0 <= i < |raw| ==> r[i].durationSec == Iso8601DurationToSeconds(raw[i].duration)
    ensures forall i :: 0 <= i < |raw| ==> r[i].views == raw[i].views.GetOr(0)
  {
    seq(|raw|, i requires 0 <= i < |raw| => Normalize(raw[i]))
  }
}

=== FILE: html.dfy ===
/**
 HTML escaping for text placed into markup (server/client/assets/js/ui.js):
 five `replaceAll` passes, ampersand first, so the entities one pass
 introduces are never rewritten by a later pass.
 */
module Html {
  import opened Text

  /**
   `s.replaceAll(pat, rep)` for a one-character pattern and a replacement
   without `$` (so no `$&`-style substitution applies): every occurrence is
   replaced, left to right, and the inserted text is not searched again.
   */
  function ReplaceAll(s: string, pat: char, rep: string): (r: string)
    ensures pat !in rep ==> pat !in r
    ensures pat !in s ==> r == s
    ensures |rep| >= 1 ==> |r| >= |s|
  {
    if |s| == 0 then ""
    else
      var rest := ReplaceAll(s[1..], pat, rep);
      assert s == [s[0]] + s[1..];
      (if s[0] == pat then rep else [s[0]]) + rest
  }

  /** `replaceAll` distributes over concatenation: a pattern of one character cannot straddle the seam. */
  lemma {:induction false} ReplaceAllAppend(a: string, b: string, pat: char, rep: string)
    ensures ReplaceAll(a + b, pat, rep) == ReplaceAll(a, pat, rep) + ReplaceAll(b, pat, rep)
  {
    if |a| > 0 {
      assert (a + b)[0] == a[0];
      assert (a + b)[1..] == a[1..] + b;
      ReplaceAllAppend(a[1..], b, pat, rep);
    } else {
      assert a + b == b;
    }
  }

  const Amp: string := "&amp;"
  const Lt: string := "&lt;"
  const Gt: string := "&gt;"
  const Quot: string := "&quot;"
  const Apos: string := "&#039;"

  /** The characters `escapeHtml` rewrites. */
  predicate IsSpecial(c: char) {
    c == '&' || c == '<' || c == '>' || c == '"' || c == '\''
  }

  /** The characters that may not survive escaping at all. */
  predicate IsMarkup(c: char) {
    c == '<' || c == '>' || c == '"' || c == '\''
  }

  /** `escapeHtml(s)` */
  function EscapeHtml(s: string): (r: string)
    ensures |r| >= |s|
    ensures '&' !in s && '<' !in s && '>' !in s && '"' !in s && '\'' !in s ==> r == s
  {
    var s1 := ReplaceAll(s, '&', Amp);
    var s2 := ReplaceAll(s1, '<', Lt);
    var s3 := ReplaceAll(s2, '>', Gt);
    var s4 := ReplaceAll(s3, '"', Quot);
    ReplaceAll(s4, '\'', Apos)
  }

  // ---------- The reference definition: one character at a time ----------

  /** What a single character becomes. */
  function EscapeChar(c: char): (r: string)
    ensures |r| >= 1
    ensures r == [c] <==> !IsSpecial(c)
  {
    match c
    case '&' => Amp
    case '<' => Lt
    case '>' => Gt
    case '"' => Quot
    case '\'' => Apos
    case _ => [c]
  }

  /** One of the five entities starts at position `i` of `r`. */
  predicate EntityAt(r: string, i: nat)
    requires i <= |r|
  {
    StartsWith(r[i..], Amp) || StartsWith(r[i..], Lt) || StartsWith(r[i..], Gt)
    || StartsWith(r[i..], Quot) || StartsWith(r[i..], Apos)
  }

  /** Text that is inert inside markup: no markup character, and every `&` opens an entity. */
  predicate SafeText(r: string) {
    && (forall i :: 0 <= i < |r| ==> !IsMarkup(r[i]))
    && (forall i :: 0 <= i < |r| && r[i] == '&' ==> EntityAt(r, i))
  }

  lemma SafeAppend(a: string, b: string)
    requires SafeText(a) && SafeText(b)
    ensures SafeText(a + b)
  {
    var r := a + b;
    forall i | 0 <= i < |r| && r[i] == '&'
      ensures EntityAt(r, i)
    {
      if i < |a| {
        assert a[i] == '&';
        assert EntityAt(a, i);
        assert r[i..] == a[i..] + b;
        forall e | StartsWith(a[i..], e)
          ensures StartsWith(r[i..], e)
        {
          StartsWithExtend(a[i..], b, e);
        }
      } else {
        assert b[i - |a|] == '&';
        assert r[i..] == b[i - |a|..];
      }
    }
    forall i | 0 <= i < |r|
      ensures !IsMarkup(r[i])
    {
      if i >= |a| {
        assert r[i] == b[i - |a|];
      }
    }
  }

  lemma StartsWithExtend(x: string, y: string, e: string)
    requires StartsWith(x, e)
    ensures StartsWith(x + y, e)
  {
    assert (x + y)[..|e|] == x[..|e|];
  }

  lemma EscapeCharSafe(c: char)
    ensures SafeText(EscapeChar(c))
  {
    var r := EscapeChar(c);
    forall i | 0 <= i < |r| && r[i] == '&'
      ensures EntityAt(r, i)
    {
      assert i == 0;
      assert r[0..] == r;
    }
  }

  /** Escape each character independently and concatenate. */
  function EscapeEach(s: string): (r: string)
    ensures SafeText(r)
    ensures |r| >= |s|
    ensures (forall i :: 0 <= i < |s| ==> !IsSpecial(s[i])) ==> r == s
  {
    if |s| == 0 then ""
    else
      EscapeCharSafe(s[0]);
      SafeAppend(EscapeChar(s[0]), EscapeEach(s[1..]));
      EscapeChar(s[0]) + EscapeEach(s[1..])
  }

  // ---------- The five passes equal the reference ----------

  /** Escaping distributes over concatenation. */
  lemma EscapeAppend(a: string, b: string)
    ensures EscapeHtml(a + b) == EscapeHtml(a) + EscapeHtml(b)
  {
    var a1, b1 := ReplaceAll(a, '&', Amp), ReplaceAll(b, '&', Amp);
    ReplaceAllAppend(a, b, '&', Amp);
    var a2, b2 := ReplaceAll(a1, '<', Lt), ReplaceAll(b1, '<', Lt);
    ReplaceAllAppend(a1, b1, '<', Lt);
    var a3, b3 := ReplaceAll(a2, '>', Gt), ReplaceAll(b2, '>', Gt);
    ReplaceAllAppend(a2, b2, '>', Gt);
    var a4, b4 := ReplaceAll(a3, '"', Quot), ReplaceAll(b3, '"', Quot);
    ReplaceAllAppend(a3, b3, '"', Quot);
    ReplaceAllAppend(a4, b4, '\'', Apos);
  }

  /** On one character the five passes produce that character's escape. */
  lemma EscapeOneChar(c: char)
    ensures EscapeHtml([c]) == EscapeChar(c)
  {
    EntityFacts();
    ReplaceOne(c, '&', Amp);
    if c == '&' {
      Untouched(Amp, '<', Lt);
      Untouched(Amp, '>', Gt);
      Untouched(Amp, '"', Quot);
      Untouched(Amp, '\'', Apos);
    } else {
      ReplaceOne(c, '<', Lt);
      if c == '<' {
        Untouched(Lt, '>', Gt);
        Untouched(Lt, '"', Quot);
        Untouched(Lt, '\'', Apos);
      } else {
        ReplaceOne(c, '>', Gt);
        if c == '>' {
          Untouched(Gt, '"', Quot);
          Untouched(Gt, '\'', Apos);
        } else {
          ReplaceOne(c, '"', Quot);
          if c == '"' {
            Untouched(Quot, '\'', Apos);
          } else {
            ReplaceOne(c, '\'', Apos);
          }
        }
      }
    }
  }

  lemma ReplaceOne(c: char, pat: char, rep: string)
    ensures ReplaceAll([c], pat, rep) == if c == pat then rep else [c]
  {
    assert [c][1..] == "";
  }

  lemma Untouched(s: string, pat: char, rep: string)
    requires forall i :: 0 <= i < |s| ==> s[i] != pat
    ensures ReplaceAll(s, pat, rep) == s
  {
  }

  /** Which pattern characters each entity lacks, so the later passes leave it alone. */
  lemma EntityFacts()
    ensures forall i :: 0 <= i < |Amp| ==> Amp[i] != '<' && Amp[i] != '>' && Amp[i] != '"' && Amp[i] != '\''
    ensures forall i :: 0 <= i < |Lt| ==> Lt[i] != '>' && Lt[i] != '"' && Lt[i] != '\''
    ensures forall i :: 0 <= i < |Gt| ==> Gt[i] != '"' && Gt[i] != '\''
    ensures forall i :: 0 <= i < |Quot| ==> Quot[i] != '\''
  {
  }

  /**
   The five passes act exactly like escaping each character on its own: an
   entity introduced by one pass is never rewritten by a later one.
   */
  lemma {:induction false} EscapeIsPerCharacter(s: string)
    ensures EscapeHtml(s) == EscapeEach(s)
  {
    if |s| > 0 {
      assert s == [s[0]] + s[1..];
      EscapeAppend([s[0]], s[1..]);
      EscapeOneChar(s[0]);
      EscapeIsPerCharacter(s[1..]);
    }
  }

  /** Every `&` in the output opens one of the five entities. */
  lemma EscapedIsSafe(s: string)
    ensures SafeText(EscapeHtml(s))
  {
    EscapeIsPerCharacter(s);
  }

  /** Text with none of the five special characters passes through unchanged. */
  lemma EscapePlain(s: string)
    requires forall i :: 0 <= i < |s| ==> !IsSpecial(s[i])
    ensures EscapeHtml(s) == s
  {
    EscapeIsPerCharacter(s);
  }

  // ---------- Reading escaped text back ----------

  /** What an HTML parser makes of text holding the five entities. */
  function Unescape(r: string): string
    decreases |r|
  {
    if |r| == 0 then ""
    else if StartsWith(r, Amp) then "&" + Unescape(r[|Amp|..])
    else if StartsWith(r, Lt) then "<" + Unescape(r[|Lt|..])
    else if StartsWith(r, Gt) then ">" + Unescape(r[|Gt|..])
    else if StartsWith(r, Quot) then "\"" + Unescape(r[|Quot|..])
    else if StartsWith(r, Apos) then "'" + Unescape(r[|Apos|..])
    else [r[0]] + Unescape(r[1..])
  }

  lemma Mismatch(r: string, e: string, k: nat)
    requires k < |e| && k < |r| && r[k] != e[k]
    ensures !StartsWith(r, e)
  {
  }

  lemma UnescapeChar(c: char, rest: string)
    ensures Unescape(EscapeChar(c) + rest) == [c] + Unescape(rest)
  {
    var e := EscapeChar(c);
    var r := e + rest;
    assert r[..|e|] == e;
    assert r[|e|..] == rest;
    if c == '&' {
    } else if c == '<' {
      Mismatch(r, Amp, 1);
    } else if c == '>' {
      Mismatch(r, Amp, 1);
      Mismatch(r, Lt, 1);
    } else if c == '"' {
      Mismatch(r, Amp, 1);
      Mismatch(r, Lt, 1);
      Mismatch(r, Gt, 1);
    } else if c == '\'' {
      Mismatch(r, Amp, 1);
      Mismatch(r, Lt, 1);
      Mismatch(r, Gt, 1);
      Mismatch(r, Quot, 1);
    } else {
      Mismatch(r, Amp, 0);
      Mismatch(r, Lt, 0);
      Mismatch(r, Gt, 0);
      Mismatch(r, Quot, 0);
      Mismatch(r, Apos, 0);
      assert r[1..] == rest;
    }
  }

  /** Escaping loses nothing: the parser reads back exactly the original text. */
  lemma {:induction false} UnescapeEscape(s: string)
    ensures Unescape(EscapeHtml(s)) == s
  {
    EscapeIsPerCharacter(s);
    if |s| > 0 {
      UnescapeChar(s[0], EscapeEach(s[1..]));
      UnescapeEscape(s[1..]);
      EscapeIsPerCharacter(s[1..]);
      assert s == [s[0]] + s[1..];
    }
  }

  /** Escaping twice escapes the ampersands of the first pass again. */
  lemma EscapeNotIdempotent()
    ensures EscapeHtml("&") == "&amp;"
    ensures EscapeHtml(EscapeHtml("&")) == "&amp;amp;"
  {
    var tail := "amp;";
    assert Amp == ['&'] + tail;
    assert Amp + tail == "&amp;amp;";
    assert forall i :: 0 <= i < |tail| ==> !IsSpecial(tail[i]);
    EscapePlain(tail);
    EscapeOneChar('&');
    EscapeAppend(['&'], tail);
  }
}

=== FILE: http.dfy ===
/**
 The response side of a route handler: a status code with either the success
 payload (status 200, body `{ok: true, ...}`) or an error message (body
 `{ok: false, error}`), and the handler's state transition.
 */
module Http {

  const BadRequest: nat := 400
  const Unauthorized: nat := 401
  const NotFound: nat := 404
  const Conflict: nat := 409

  datatype Reply<+T> = Ok(value: T) | Fail(status: nat, error: string)

  /** One load -> mutate -> save cycle: the reply sent and the state left behind. */
  datatype Step<+T, +S> = Step(reply: Reply<T>, state: S)
}

=== FILE: js.dfy ===
/**
 Plain JavaScript value notions that the handlers rely on: an optional value
 (a request field that may be missing), JavaScript's "falsy" test on such a
 string field, and a JavaScript number that may be non-finite.
 */
module Js {

  /** A value that may be absent (`undefined` or `null` in JavaScript). */
  datatype Option<+T> = None | Some(value: T) {

    /** The value, or `default` when absent: the `x || default` idiom. */
    function GetOr(default: T): T {
      match this
      case Some(v) => v
      case None => default
    }
  }

  /** A string field is falsy when it is absent or the empty string. */
  predicate Falsy(f: Option<string>) {
    f.None? || f.value == ""
  }

  /**
   A JavaScript number as produced by `Number(...)`: either a finite value or
   one of NaN, +Infinity, -Infinity (which `Number.isFinite` rejects).
   */
  datatype JsNumber = Finite(value: real) | NonFinite
}

=== FILE: seqs.dfy ===
/** Order-preserving selection on sequences, the relation every `Array.prototype.filter` result stands in to its input. */
module Seqs {

  /** `a` is `b` with some elements left out and the rest kept in order. */
  predicate Subsequence<T(==)>(a: seq<T>, b: seq<T>)
    decreases |b|
  {
    if |b| == 0 then |a| == 0
    else Subsequence(a, b[1..]) || (|a| > 0 && a[0] == b[0] && Subsequence(a[1..], b[1..]))
  }

}

=== FILE: sessions.dfy ===
/**
 The in-memory session store and the authentication gate (server/lib/auth.js).
 The store maps a session token to the user it was issued for; it lives only
 as long as the process. The token is 24 random bytes rendered as lowercase
 hex; the random bytes and the clock are inputs here.
 */
module Sessions {
  import opened Js
  import opened Http

  type Byte = b: int | 0 <= b < 256
  type Token = string

  datatype Session = Session(username: string, createdAt: int)

  /** The process-wide `sessions` map: token -> session. */
  type SessionMap = map<Token, Session>

  /** `crypto.randomBytes(24)` */
  const TokenBytes: nat := 24

  predicate IsLowerHex(c: char) {
    ('0' <= c <= '9') || ('a' <= c <= 'f')
  }

  predicate AllLowerHex(t: string) {
    forall i :: 0 <= i < |t| ==> IsLowerHex(t[i])
  }

  /** The shape of every token `createSession` issues: 48 lowercase hex digits. */
  predicate WellFormedToken(t: Token) {
    |t| == 2 * TokenBytes && AllLowerHex(t)
  }

  function HexDigit(d: nat): (c: char)
    requires d < 16
    ensures IsLowerHex(c)
  {
    if d < 10 then ('0' as int + d) as char else ('a' as int + d - 10) as char
  }

  function HexValue(c: char): (d: nat)
    requires IsLowerHex(c)
    ensures d < 16
  {
    if c <= '9' then c as int - '0' as int else c as int - 'a' as int + 10
  }

  /** `buffer.toString("hex")`: two lowercase hex digits per byte, high nibble first. */
  function HexEncode(bytes: seq<Byte>): (t: string)
    ensures |t| == 2 * |bytes|
    ensures AllLowerHex(t)
  {
    if |bytes| == 0 then []
    else
      var rest := HexEncode(bytes[1..]);
      var t := [HexDigit(bytes[0] / 16), HexDigit(bytes[0] % 16)] + rest;
      assert forall i :: 2 <= i < |t| ==> t[i] == rest[i - 2];
      t
  }

  /** Reads a hex rendering back into bytes, two digits at a time. */
  function HexDecode(t: string): seq<Byte>
    requires AllLowerHex(t)
  {
    if |t| < 2 then []
    else [HexValue(t[0]) * 16 + HexValue(t[1])] + HexDecode(t[2..])
  }

  /** The hex rendering loses nothing: distinct random bytes give distinct tokens. */
  lemma {:induction false} HexRoundTrip(bytes: seq<Byte>)
    ensures HexDecode(HexEncode(bytes)) == bytes
  {
    if |bytes| > 0 {
      var t := HexEncode(bytes);
      assert t[2..] == HexEncode(bytes[1..]);
      HexRoundTrip(bytes[1..]);
      assert HexValue(HexDigit(bytes[0] / 16)) == bytes[0] / 16;
      assert HexValue(HexDigit(bytes[0] % 16)) == bytes[0] % 16;
    }
  }

  datatype Created = Created(sid: Token, store: SessionMap)

  /**
   `createSession(username)`: issues the hex token of the given random bytes
   and records `{username, createdAt}` under it (`Map.set`, so an existing
   entry under the same token would be replaced).
   */
  function CreateSession(store: SessionMap, username: string, random: seq<Byte>, now: int): (r: Created)
    requires |random| == TokenBytes
    ensures WellFormedToken(r.sid)
    ensures r.sid == HexEncode(random)
    ensures r.store.Keys == store.Keys + {r.sid}
    ensures r.store[r.sid] == Session(username, now)
    ensures forall t :: t in store && t != r.sid ==> r.store[t] == store[t]
  {
    var sid := HexEncode(random);
    Created(sid, store[sid := Session(username, now)])
  }

  /** `deleteSession(sid)`: `Map.delete`, a no-op for an unknown token. */
  function DeleteSession(store: SessionMap, sid: Token): (r: SessionMap)
    ensures sid !in r
    ensures r.Keys == store.Keys - {sid}
    ensures forall t :: t in r ==> r[t] == store[t]
    ensures sid !in store ==> r == store
  {
    store - {sid}
  }

  /** `getSession(sid)`: a falsy token yields nothing without consulting the map. */
  function GetSession(store: SessionMap, cookie: Option<Token>): (r: Option<Session>)
    ensures Falsy(cookie) ==> r.None?
    ensures r.Some? <==> !Falsy(cookie) && cookie.value in store
    ensures r.Some? ==> r.value == store[cookie.value]
  {
    if Falsy(cookie) then None
    else if cookie.value in store then Some(store[cookie.value])
    else None
  }

  /** What `requireAuth` attaches to the request as `req.auth`. */
  datatype Auth = Auth(username: string, sid: Token)

  const NotAuthenticated: string := "Not authenticated"

  /**
   `requireAuth`: either answers 401 (and the route handler never runs) or
   yields the acting identity, which is the username recorded in the session
   the cookie names.
   */
  function RequireAuth(store: SessionMap, cookie: Option<Token>): (r: Reply<Auth>)
    ensures r.Fail? <==> (Falsy(cookie) || cookie.value !in store)
    ensures r.Fail? ==> r == Fail(Unauthorized, NotAuthenticated)
    ensures r.Ok? ==> r.value == Auth(store[cookie.value].username, cookie.value)
  {
    match GetSession(store, cookie)
    case None => Fail(Unauthorized, NotAuthenticated)
    case Some(s) => Ok(Auth(s.username, cookie.value))
  }

  /** A freshly created session is found under its token; every other lookup is unchanged. */
  lemma GetAfterCreate(store: SessionMap, username: string, random: seq<Byte>, now: int, other: Option<Token>)
    requires |random| == TokenBytes
    ensures var c := CreateSession(store, username, random, now);
      && GetSession(c.store, Some(c.sid)) == Some(Session(username, now))
      && (other != Some(c.sid) ==> GetSession(c.store, other) == GetSession(store, other))
  {
  }

  /** After deletion the token resolves to nothing; other lookups are unchanged. */
  lemma GetAfterDelete(store: SessionMap, sid: Token, other: Option<Token>)
    ensures GetSession(DeleteSession(store, sid), Some(sid)).None?
    ensures other != Some(sid) ==> GetSession(DeleteSession(store, sid), other) == GetSession(store, other)
  {
  }

  /** Deleting a session just created under an unused token restores the store. */
  lemma DeleteUndoesCreate(store: SessionMap, username: string, random: seq<Byte>, now: int)
    requires |random| == TokenBytes
    requires HexEncode(random) !in store
    ensures var c := CreateSession(store, username, random, now);
      DeleteSession(c.store, c.sid) == store
  {
    var c := CreateSession(store, username, random, now);
    assert DeleteSession(c.store, c.sid).Keys == store.Keys;
  }

  /** The gate lets the new token through as exactly the user it was issued for. */
  lemma AuthAfterCreate(store: SessionMap, username: string, random: seq<Byte>, now: int)
    requires |random| == TokenBytes
    ensures var c := CreateSession(store, username, random, now);
      RequireAuth(c.store, Some(c.sid)) == Ok(Auth(username, c.sid))
  {
    var c := CreateSession(store, username, random, now);
    assert c.sid != "";
  }
}

=== FILE: store.dfy ===
/**
 The playlist store (server/server.js, playlist routes). All users' playlists
 live in one ordered sequence (`playlists.json`); every handler loads the whole
 sequence, changes it, and writes the whole sequence back, so each handler is
 one transition from the old sequence to the reply and the new sequence. The
 acting `user` is always the one the authentication gate resolved; a playlist
 is reachable only through its owner's name and its id, and one owned by
 somebody else is reported exactly like one that does not exist.
 */
module PlaylistStore {
  import opened Js
  import opened Http
  import opened Text
  import opened Seqs

  datatype Item = Item(videoId: string, title: string, thumbnailUrl: string, durationSec: int, views: int,
                       addedAt: string, rating: real)

  datatype Playlist = Playlist(id: string, username: string, name: string, items: seq<Item>, createdAt: string)

  type Store = seq<Playlist>

  const MsgNameRequired: string := "Playlist name required."
  const MsgPlaylistNotFound: string := "Playlist not found."
  const MsgInvalidItem: string := "Invalid item payload."
  const MsgRatingRange: string := "Rating must be 0..5."
  const MsgItemNotFound: string := "Item not found."

  /** The test every handler uses to reach a playlist: owner and id both match. */
  predicate Owned(p: Playlist, user: string, id: string) {
    p.username == user && p.id == id
  }

  predicate HasVideo(items: seq<Item>, videoId: string) {
    exists k :: 0 <= k < |items| && items[k].videoId == videoId
  }

  // ---------- Store invariants ----------

  ghost predicate UniqueIds(all: Store) {
    forall i, j :: 0 <= i < j < |all| ==> all[i].id != all[j].id
  }

  ghost predicate UniqueVideoIds(items: seq<Item>) {
    forall a, b :: 0 <= a < b < |items| ==> items[a].videoId != items[b].videoId
  }

  /** Playlist ids are unique, and no playlist holds the same video twice. */
  ghost predicate WellFormed(all: Store) {
    UniqueIds(all) && forall i :: 0 <= i < |all| ==> UniqueVideoIds(all[i].items)
  }

  // ---------- Queries ----------

  /** `all.filter(p => p.username === user)`: the playlists `user` owns, in stored order. */
  function Mine(all: Store, user: string): (r: Store)
    ensures forall p :: p in r <==> p in all && p.username == user
    ensures Subsequence(r, all)
  {
    if |all| == 0 then []
    else
      var rest := Mine(all[1..], user);
      assert all == [all[0]] + all[1..];
      if all[0].username == user then [all[0]] + rest else rest
  }

  /** `all.find(p => p.username === user && p.id === id)`, as an index. */
  function FindOwned(all: Store, user: string, id: string): (r: Option<nat>)
    ensures r.Some? ==> (r.value < |all| && Owned(all[r.value], user, id)
      && forall j :: 0 <= j < r.value ==> !Owned(all[j], user, id))
    ensures r.None? <==> forall j :: 0 <= j < |all| ==> !Owned(all[j], user, id)
  {
    if |all| == 0 then None
    else if Owned(all[0], user, id) then Some(0)
    else match FindOwned(all[1..], user, id)
      case None => None
      case Some(i) => Some(i + 1)
  }

  /** `all.filter(p => !(p.username === user && p.id === id))` */
  function Without(all: Store, user: string, id: string): (r: Store)
    ensures forall p :: p in r <==> p in all && !Owned(p, user, id)
    ensures Subsequence(r, all)
    ensures |r| <= |all|
    ensures |r| == |all| <==> forall j :: 0 <= j < |all| ==> !Owned(all[j], user, id)
  {
    if |all| == 0 then []
    else
      var rest := Without(all[1..], user, id);
      assert all == [all[0]] + all[1..];
      if Owned(all[0], user, id) then rest else [all[0]] + rest
  }

  /** `items.find(x => x.videoId === videoId)`, as an index. */
  function FindItem(items: seq<Item>, videoId: string): (r: Option<nat>)
    ensures r.Some? ==> (r.value < |items| && items[r.value].videoId == videoId
      && forall j :: 0 <= j < r.value ==> items[j].videoId != videoId)
    ensures r.None? <==> !HasVideo(items, videoId)
  {
    if |items| == 0 then None
    else if items[0].videoId == videoId then Some(0)
    else match FindItem(items[1..], videoId)
      case None =>
        assert forall k :: 1 <= k < |items| ==> items[k] == items[1..][k - 1];
        None
      case Some(i) => Some(i + 1)
  }

  /** `items.filter(x => x.videoId !== videoId)` */
  function DropVideo(items: seq<Item>, videoId: string): (r: seq<Item>)
    ensures forall x :: x in r <==> x in items && x.videoId != videoId
    ensures Subsequence(r, items)
    ensures |r| <= |items|
    ensures |r| == |items| <==> !HasVideo(items, videoId)
  {
    if |items| == 0 then []
    else
      var rest := DropVideo(items[1..], videoId);
      assert items == [items[0]] + items[1..];
      assert HasVideo(items, videoId) <==> items[0].videoId == videoId || HasVideo(items[1..], videoId) by {
        if HasVideo(items[1..], videoId) {
          var k :| 0 <= k < |items[1..]| && items[1..][k].videoId == videoId;
          assert items[k + 1].videoId == videoId;
        }
        if HasVideo(items, videoId) && items[0].videoId != videoId {
          var k :| 0 <= k < |items| && items[k].videoId == videoId;
          assert items[1..][k - 1].videoId == videoId;
        }
      }
      if items[0].videoId == videoId then rest else [items[0]] + rest
  }

  // ---------- Handlers ----------

  /** `GET /api/playlists`: exactly the caller's playlists, in stored order; nothing is written. */
  function List(all: Store, user: string): (r: Step<Store, Store>)
    ensures r.state == all && r.reply.Ok?
    ensures r.reply.value == Mine(all, user)
    ensures forall p :: p in r.reply.value <==> p in all && p.username == user
    ensures Subsequence(r.reply.value, all)
  {
    Step(Ok(Mine(all, user)), all)
  }

  /**
   `POST /api/playlists`. A missing name, or one that is only white space, is
   rejected and nothing is written. Otherwise one playlist is appended at the
   end: the fresh id, the caller as owner, the trimmed name, no items.
   */
  function Create(all: Store, user: string, name: Option<string>, freshId: string, now: string): (r: Step<Playlist, Store>)
    requires forall j :: 0 <= j < |all| ==> all[j].id != freshId
    ensures r.reply.Ok? <==> name.Some? && exists k :: 0 <= k < |name.value| && !IsWhiteSpace(name.value[k])
    ensures r.reply.Fail? ==> r == Step(Fail(BadRequest, MsgNameRequired), all)
    ensures r.reply.Ok? ==> (r.reply.value == Playlist(freshId, user, Trim(name.value), [], now)
      && r.state == all + [r.reply.value])
  {
    if name.None? then Step(Fail(BadRequest, MsgNameRequired), all)
    else
      TrimEmptyIff(name.value);
      if name.value == "" || Trim(name.value) == "" then Step(Fail(BadRequest, MsgNameRequired), all)
      else
        var pl := Playlist(freshId, user, Trim(name.value), [], now);
        Step(Ok(pl), all + [pl])
  }

  /**
   `DELETE /api/playlists/:id`: removes every playlist with that owner and id.
   When none matches (absent, or owned by someone else) the answer is 404 and
   nothing is written.
   */
  function DeletePlaylist(all: Store, user: string, id: string): (r: Step<(), Store>)
    ensures r.reply.Fail? <==> forall j :: 0 <= j < |all| ==> !Owned(all[j], user, id)
    ensures r.reply.Fail? ==> r == Step(Fail(NotFound, MsgPlaylistNotFound), all)
    ensures r.reply.Ok? ==> ((forall p :: p in r.state <==> p in all && !Owned(p, user, id))
      && Subsequence(r.state, all) && |r.state| < |all|)
    ensures r.reply.Ok? ==> r.state == Without(all, user, id)
  {
    var filtered := Without(all, user, id);
    if |filtered| == |all| then Step(Fail(NotFound, MsgPlaylistNotFound), all)
    else Step(Ok(()), filtered)
  }

  /** The `item` object of an add-item request; every field may be missing. */
  datatype ItemPayload = ItemPayload(videoId: Option<string>, title: Option<string>, thumbnailUrl: Option<string>,
                                     durationSec: Option<int>, views: Option<int>, rating: Option<real>)

  predicate ValidPayload(item: Option<ItemPayload>) {
    item.Some? && !Falsy(item.value.videoId) && !Falsy(item.value.title)
  }

  /**
   The stored item: the video id and title as sent, the time of the request,
   and "" or 0 for each optional field that was left out.
   */
  function NewItem(p: ItemPayload, now: string): (r: Item)
    requires p.videoId.Some? && p.title.Some?
    ensures r.videoId == p.videoId.value && r.title == p.title.value && r.addedAt == now
    ensures p.thumbnailUrl.Some? ==> r.thumbnailUrl == p.thumbnailUrl.value
    ensures p.thumbnailUrl.None? ==> r.thumbnailUrl == ""
    ensures p.durationSec.Some? ==> r.durationSec == p.durationSec.value
    ensures p.durationSec.None? ==> r.durationSec == 0
    ensures p.views.Some? ==> r.views == p.views.value
    ensures p.views.None? ==> r.views == 0
    ensures p.rating.Some? ==> r.rating == p.rating.value
    ensures p.rating.None? ==> r.rating == 0.0
  {
    Item(p.videoId.value, p.title.value, p.thumbnailUrl.GetOr(""), p.durationSec.GetOr(0), p.views.GetOr(0),
         now, p.rating.GetOr(0.0))
  }

  /**
   `POST /api/playlists/:id/items`. The payload is checked before the store
   is read. Adding a video the playlist already holds answers with the
   playlist as it is and writes nothing; otherwise exactly one item is
   appended to that playlist and every other playlist is left alone.
   */
  function AddItem(all: Store, user: string, id: string, item: Option<ItemPayload>, now: string): (r: Step<Playlist, Store>)
    ensures !ValidPayload(item) ==> r == Step(Fail(BadRequest, MsgInvalidItem), all)
    ensures (ValidPayload(item) && forall j :: 0 <= j < |all| ==> !Owned(all[j], user, id)) ==>
      r == Step(Fail(NotFound, MsgPlaylistNotFound), all)
    ensures r.reply.Ok? <==> ValidPayload(item) && exists j :: 0 <= j < |all| && Owned(all[j], user, id)
    ensures r.reply.Ok? ==>
      var i := FindOwned(all, user, id).value;
      var vid := item.value.videoId.value;
      && |r.state| == |all|
      && (forall j :: 0 <= j < |all| && j != i ==> r.state[j] == all[j])
      && r.reply.value == r.state[i]
      && (HasVideo(all[i].items, vid) ==> r.state == all)
      && (!HasVideo(all[i].items, vid) ==> r.state[i] == all[i].(items := all[i].items + [NewItem(item.value, now)]))
  {
    if !ValidPayload(item) then Step(Fail(BadRequest, MsgInvalidItem), all)
    else match FindOwned(all, user, id)
      case None => Step(Fail(NotFound, MsgPlaylistNotFound), all)
      case Some(i) =>
        var pl := all[i];
        if HasVideo(pl.items, item.value.videoId.value) then Step(Ok(pl), all)
        else
          var pl' := pl.(items := pl.items + [NewItem(item.value, now)]);
          Step(Ok(pl'), all[i := pl'])
  }

  /** `Number.isFinite(r) && 0 <= r <= 5`; fractions such as 2.5 pass. */
  predicate ValidRating(rating: JsNumber) {
    rating.Finite? && 0.0 <= rating.value <= 5.0
  }

  /**
   `PATCH /api/playlists/:id/items/:videoId`. The rating is checked before
   anything is looked up; then the playlist, then the item. On success only
   the `rating` of the first item with that video changes.
   */
  function SetRating(all: Store, user: string, id: string, videoId: string, rating: JsNumber): (r: Step<Playlist, Store>)
    ensures !ValidRating(rating) ==> r == Step(Fail(BadRequest, MsgRatingRange), all)
    ensures (ValidRating(rating) && forall j :: 0 <= j < |all| ==> !Owned(all[j], user, id)) ==>
      r == Step(Fail(NotFound, MsgPlaylistNotFound), all)
    ensures (ValidRating(rating) && FindOwned(all, user, id).Some?
      && !HasVideo(all[FindOwned(all, user, id).value].items, videoId)) ==>
      r == Step(Fail(NotFound, MsgItemNotFound), all)
    ensures r.reply.Ok? <==> (ValidRating(rating) && FindOwned(all, user, id).Some?
      && HasVideo(all[FindOwned(all, user, id).value].items, videoId))
    ensures r.reply.Ok? ==>
      var i := FindOwned(all, user, id).value;
      var k := FindItem(all[i].items, videoId).value;
      && |r.state| == |all|
      && (forall j :: 0 <= j < |all| && j != i ==> r.state[j] == all[j])
      && r.reply.value == r.state[i]
      && r.state[i] == all[i].(items := r.state[i].items)
      && |r.state[i].items| == |all[i].items|
      && (forall m :: 0 <= m < |all[i].items| && m != k ==> r.state[i].items[m] == all[i].items[m])
      && r.state[i].items[k] == all[i].items[k].(rating := rating.value)
  {
    if !ValidRating(rating) then Step(Fail(BadRequest, MsgRatingRange), all)
    else match FindOwned(all, user, id)
      case None => Step(Fail(NotFound, MsgPlaylistNotFound), all)
      case Some(i) =>
        var pl := all[i];
        match FindItem(pl.items, videoId)
        case None => Step(Fail(NotFound, MsgItemNotFound), all)
        case Some(k) =>
          var pl' := pl.(items := pl.items[k := pl.items[k].(rating := rating.value)]);
          Step(Ok(pl'), all[i := pl'])
  }

  /**
   `DELETE /api/playlists/:id/items/:videoId`: removes every item with that
   video from the caller's playlist. Nothing to remove answers 404 and writes
   nothing.
   */
  function RemoveItem(all: Store, user: string, id: string, videoId: string): (r: Step<Playlist, Store>)
    ensures (forall j :: 0 <= j < |all| ==> !Owned(all[j], user, id)) ==>
      r == Step(Fail(NotFound, MsgPlaylistNotFound), all)
    ensures (FindOwned(all, user, id).Some? && !HasVideo(all[FindOwned(all, user, id).value].items, videoId)) ==>
      r == Step(Fail(NotFound, MsgItemNotFound), all)
    ensures r.reply.Ok? <==> (FindOwned(all, user, id).Some?
      && HasVideo(all[FindOwned(all, user, id).value].items, videoId))
    ensures r.reply.Ok? ==>
      var i := FindOwned(all, user, id).value;
      && |r.state| == |all|
      && (forall j :: 0 <= j < |all| && j != i ==> r.state[j] == all[j])
      && r.reply.value == r.state[i]
      && r.state[i] == all[i].(items := r.state[i].items)
      && (forall x :: x in r.state[i].items <==> x in all[i].items && x.videoId != videoId)
      && Subsequence(r.state[i].items, all[i].items)
      && |r.state[i].items| < |all[i].items|
      && r.state[i].items == DropVideo(all[i].items, videoId)
  {
    match FindOwned(all, user, id)
    case None => Step(Fail(NotFound, MsgPlaylistNotFound), all)
    case Some(i) =>
      var pl := all[i];
      var kept := DropVideo(pl.items, videoId);
      if |kept| == |pl.items| then Step(Fail(NotFound, MsgItemNotFound), all)
      else
        var pl' := pl.(items := kept);
        Step(Ok(pl'), all[i := pl'])
  }
}

=== FILE: store_laws.dfy ===
/**
 Laws of the playlist store that relate several calls: other users never see
 a change, adding the same video twice is the same as adding it once, each
 mutation has an inverse, and the store invariants are preserved.
 */
module StoreLaws {
  import opened Js
  import opened Http
  import opened PlaylistStore

  // ---------- The owner filter ----------

  lemma {:induction false} MineAppend(a: Store, b: Store, u: string)
    ensures Mine(a + b, u) == Mine(a, u) + Mine(b, u)
  {
    if |a| > 0 {
      assert (a + b)[0] == a[0];
      assert (a + b)[1..] == a[1..] + b;
      MineAppend(a[1..], b, u);
    } else {
      assert a + b == b;
    }
  }

  /** Replacing a playlist `u` neither owned nor owns afterwards leaves `u`'s view unchanged. */
  lemma {:induction false} MineUpdate(all: Store, i: nat, p: Playlist, u: string)
    requires i < |all| && all[i].username != u && p.username != u
    ensures Mine(all[i := p], u) == Mine(all, u)
  {
    if i > 0 {
      assert all[i := p][1..] == all[1..][i - 1 := p];
      MineUpdate(all[1..], i - 1, p, u);
    } else {
      assert all[i := p][1..] == all[1..];
    }
  }

  /** Deleting one user's playlists leaves every other user's view unchanged. */
  lemma {:induction false} MineWithout(all: Store, owner: string, id: string, u: string)
    requires u != owner
    ensures Mine(Without(all, owner, id), u) == Mine(all, u)
  {
    if |all| > 0 {
      MineWithout(all[1..], owner, id, u);
    }
  }

  // ---------- Inverses ----------

  lemma {:induction false} WithoutNoMatch(all: Store, user: string, id: string)
    requires forall j :: 0 <= j < |all| ==> !Owned(all[j], user, id)
    ensures Without(all, user, id) == all
  {
    if |all| > 0 {
      WithoutNoMatch(all[1..], user, id);
      assert all == [all[0]] + all[1..];
    }
  }

  lemma {:induction false} WithoutAppend(a: Store, b: Store, user: string, id: string)
    ensures Without(a + b, user, id) == Without(a, user, id) + Without(b, user, id)
  {
    if |a| > 0 {
      assert (a + b)[0] == a[0];
      assert (a + b)[1..] == a[1..] + b;
      WithoutAppend(a[1..], b, user, id);
    } else {
      assert a + b == b;
    }
  }

  /** Creating a playlist and then deleting it by its new id restores the store. */
  lemma CreateThenDelete(all: Store, user: string, name: Option<string>, freshId: string, now: string)
    requires forall j :: 0 <= j < |all| ==> all[j].id != freshId
    requires Create(all, user, name, freshId, now).reply.Ok?
    ensures var c := Create(all, user, name, freshId, now);
      DeletePlaylist(c.state, user, freshId) == Step(Ok(()), all)
  {
    var c := Create(all, user, name, freshId, now);
    WithoutAppend(all, [c.reply.value], user, freshId);
    WithoutNoMatch(all, user, freshId);
    assert [c.reply.value][1..] == [];
    assert Without([c.reply.value], user, freshId) == [];
    assert Without(c.state, user, freshId) == all;
  }

  lemma {:induction false} DropVideoAbsent(items: seq<Item>, v: string)
    requires !HasVideo(items, v)
    ensures DropVideo(items, v) == items
  {
    if |items| > 0 {
      assert forall k :: 0 <= k < |items[1..]| ==> items[1..][k] == items[k + 1];
      DropVideoAbsent(items[1..], v);
      assert items == [items[0]] + items[1..];
    }
  }

  /** The item filter distributes over concatenation, so every kept item keeps all of its copies. */
  lemma {:induction false} DropVideoDistributes(a: seq<Item>, b: seq<Item>, v: string)
    ensures DropVideo(a + b, v) == DropVideo(a, v) + DropVideo(b, v)
  {
    if |a| > 0 {
      assert (a + b)[0] == a[0];
      assert (a + b)[1..] == a[1..] + b;
      DropVideoDistributes(a[1..], b, v);
    } else {
      assert a + b == b;
    }
  }

  lemma {:induction false} DropVideoAppend(items: seq<Item>, x: Item)
    ensures DropVideo(items + [x], x.videoId) == DropVideo(items, x.videoId)
  {
    if |items| > 0 {
      assert (items + [x])[1..] == items[1..] + [x];
      DropVideoAppend(items[1..], x);
    } else {
      assert DropVideo([x], x.videoId) == DropVideo([], x.videoId);
    }
  }

  /** With its owner and id unchanged, a playlist is still the one a lookup finds. */
  lemma FindOwnedAfterUpdate(all: Store, user: string, id: string, i: nat, p: Playlist)
    requires FindOwned(all, user, id) == Some(i)
    requires Owned(p, user, id)
    ensures FindOwned(all[i := p], user, id) == Some(i)
  {
    var s := all[i := p];
    assert Owned(s[i], user, id);
    assert forall j :: 0 <= j < i ==> s[j] == all[j];
  }

  /** Adding a video the playlist lacks and then removing it restores the store. */
  lemma AddThenRemove(all: Store, user: string, id: string, item: Option<ItemPayload>, now: string)
    requires AddItem(all, user, id, item, now).reply.Ok?
    requires !HasVideo(all[FindOwned(all, user, id).value].items, item.value.videoId.value)
    ensures var a := AddItem(all, user, id, item, now);
      RemoveItem(a.state, user, id, item.value.videoId.value) == Step(Ok(all[FindOwned(all, user, id).value]), all)
  {
    var a := AddItem(all, user, id, item, now);
    var i := FindOwned(all, user, id).value;
    var v := item.value.videoId.value;
    var x := NewItem(item.value, now);
    FindOwnedAfterUpdate(all, user, id, i, a.state[i]);
    assert a.state == all[i := a.state[i]];
    DropVideoAppend(all[i].items, x);
    DropVideoAbsent(all[i].items, v);
    assert HasVideo(a.state[i].items, v) by {
      assert a.state[i].items[|all[i].items|] == x;
    }
    assert all[i := a.state[i]][i := all[i]] == all;
  }

  // ---------- Idempotence ----------

  /** Repeating an add (at any later time) changes nothing and gives the same answer. */
  lemma AddItemIdempotent(all: Store, user: string, id: string, item: Option<ItemPayload>, now: string, later: string)
    ensures var a := AddItem(all, user, id, item, now);
      AddItem(a.state, user, id, item, later) == a
  {
    var a := AddItem(all, user, id, item, now);
    if a.reply.Ok? {
      var i := FindOwned(all, user, id).value;
      var v := item.value.videoId.value;
      FindOwnedAfterUpdate(all, user, id, i, a.state[i]);
      assert a.state == all[i := a.state[i]];
      if !HasVideo(all[i].items, v) {
        assert a.state[i].items[|all[i].items|].videoId == v;
      }
      assert HasVideo(a.state[i].items, v);
    }
  }

  /** A second removal of the same video answers 404 and writes nothing. */
  lemma RemoveItemTwice(all: Store, user: string, id: string, videoId: string)
    requires RemoveItem(all, user, id, videoId).reply.Ok?
    ensures var r := RemoveItem(all, user, id, videoId);
      RemoveItem(r.state, user, id, videoId) == Step(Fail(Http.NotFound, MsgItemNotFound), r.state)
  {
    var r := RemoveItem(all, user, id, videoId);
    var i := FindOwned(all, user, id).value;
    FindOwnedAfterUpdate(all, user, id, i, r.state[i]);
    assert r.state == all[i := r.state[i]];
    assert forall k :: 0 <= k < |r.state[i].items| ==> r.state[i].items[k] in r.state[i].items;
  }

  /** The boundary ratings 0 and 5 are accepted; -1 and 6 are rejected before any lookup. */
  lemma RatingBoundaries(all: Store, user: string, id: string, videoId: string)
    ensures SetRating(all, user, id, videoId, Finite(-1.0)) == Step(Fail(BadRequest, MsgRatingRange), all)
    ensures SetRating(all, user, id, videoId, Finite(6.0)) == Step(Fail(BadRequest, MsgRatingRange), all)
    ensures SetRating(all, user, id, videoId, NonFinite) == Step(Fail(BadRequest, MsgRatingRange), all)
    ensures FindOwned(all, user, id).Some? && HasVideo(all[FindOwned(all, user, id).value].items, videoId) ==>
      SetRating(all, user, id, videoId, Finite(0.0)).reply.Ok?
      && SetRating(all, user, id, videoId, Finite(5.0)).reply.Ok?
  {
  }

  /**
   An id owned by someone else and an id nobody has are answered alike by
   every playlist route, so a caller learns nothing about other users' ids.
   */
  lemma ForeignIdLooksMissing(all: Store, user: string, foreignId: string, missingId: string,
                              item: Option<ItemPayload>, now: string, videoId: string, rating: JsNumber)
    requires forall j :: 0 <= j < |all| ==> !Owned(all[j], user, foreignId) && all[j].id != missingId
    ensures DeletePlaylist(all, user, foreignId) == DeletePlaylist(all, user, missingId)
    ensures AddItem(all, user, foreignId, item, now) == AddItem(all, user, missingId, item, now)
    ensures SetRating(all, user, foreignId, videoId, rating) == SetRating(all, user, missingId, videoId, rating)
    ensures RemoveItem(all, user, foreignId, videoId) == RemoveItem(all, user, missingId, videoId)
  {
  }

  // ---------- Invariant preservation ----------

  lemma {:induction false} WithoutKeepsUniqueIds(all: Store, user: string, id: string)
    requires UniqueIds(all)
    ensures UniqueIds(Without(all, user, id))
  {
    if |all| > 0 {
      var tail := all[1..];
      WithoutKeepsUniqueIds(tail, user, id);
      var rest := Without(tail, user, id);
      if !Owned(all[0], user, id) {
        forall j | 0 <= j < |rest|
          ensures rest[j].id != all[0].id
        {
          assert rest[j] in tail;
          var k :| 0 <= k < |tail| && tail[k] == rest[j];
          assert all[k + 1] == rest[j];
        }
      }
    }
  }

  lemma {:induction false} DropVideoKeepsUnique(items: seq<Item>, v: string)
    requires UniqueVideoIds(items)
    ensures UniqueVideoIds(DropVideo(items, v))
  {
    if |items| > 0 {
      var tail := items[1..];
      DropVideoKeepsUnique(tail, v);
      var rest := DropVideo(tail, v);
      if items[0].videoId != v {
        forall j | 0 <= j < |rest|
          ensures rest[j].videoId != items[0].videoId
        {
          assert rest[j] in tail;
          var k :| 0 <= k < |tail| && tail[k] == rest[j];
          assert items[k + 1] == rest[j];
        }
      }
    }
  }

  lemma CreateKeepsWellFormed(all: Store, user: string, name: Option<string>, freshId: string, now: string)
    requires WellFormed(all)
    requires forall j :: 0 <= j < |all| ==> all[j].id != freshId
    ensures WellFormed(Create(all, user, name, freshId, now).state)
  {
    var c := Create(all, user, name, freshId, now);
    if c.reply.Ok? {
      var s := c.state;
      assert forall j :: 0 <= j < |all| ==> s[j] == all[j];
      assert s[|all|].id == freshId && s[|all|].items == [];
      assert UniqueIds(s);
    }
  }

  lemma DeleteKeepsWellFormed(all: Store, user: string, id: string)
    requires WellFormed(all)
    ensures WellFormed(DeletePlaylist(all, user, id).state)
  {
    var r := DeletePlaylist(all, user, id).state;
    if r != all {
      WithoutKeepsUniqueIds(all, user, id);
      forall i | 0 <= i < |r|
        ensures UniqueVideoIds(r[i].items)
      {
        assert r[i] in all;
      }
    }
  }

  lemma AddItemKeepsWellFormed(all: Store, user: string, id: string, item: Option<ItemPayload>, now: string)
    requires WellFormed(all)
    ensures WellFormed(AddItem(all, user, id, item, now).state)
  {
    var a := AddItem(all, user, id, item, now);
    if a.state != all {
      var i := FindOwned(all, user, id).value;
      var items := a.state[i].items;
      var old_items := all[i].items;
      forall x, y | 0 <= x < y < |items|
        ensures items[x].videoId != items[y].videoId
      {
        if y == |old_items| {
          assert items[x] == old_items[x];
        }
      }
    }
  }

  lemma SetRatingKeepsWellFormed(all: Store, user: string, id: string, videoId: string, rating: JsNumber)
    requires WellFormed(all)
    ensures WellFormed(SetRating(all, user, id, videoId, rating).state)
  {
    var s := SetRating(all, user, id, videoId, rating);
    if s.reply.Ok? {
      var i := FindOwned(all, user, id).value;
      var items := s.state[i].items;
      assert forall m :: 0 <= m < |items| ==> items[m].videoId == all[i].items[m].videoId;
    }
  }

  lemma RemoveItemKeepsWellFormed(all: Store, user: string, id: string, videoId: string)
    requires WellFormed(all)
    ensures WellFormed(RemoveItem(all, user, id, videoId).state)
  {
    var s := RemoveItem(all, user, id, videoId);
    if s.reply.Ok? {
      var i := FindOwned(all, user, id).value;
      DropVideoKeepsUnique(all[i].items, videoId);
      assert s.state[i].items == DropVideo(all[i].items, videoId);
    }
  }
}

=== FILE: text.dfy ===
/**
 String helpers shared by the server and the client code: ASCII character
 classes (the `[A-Za-z]`, `[0-9]` classes of the regular expressions), ASCII
 lower-casing, `String.prototype.trim`, `String.prototype.includes`, and
 decimal digit strings.
 */
module Text {

  predicate IsAsciiLetter(c: char) {
    ('A' <= c <= 'Z') || ('a' <= c <= 'z')
  }

  predicate IsDigit(c: char) {
    '0' <= c <= '9'
  }

  predicate IsAsciiAlnum(c: char) {
    IsAsciiLetter(c) || IsDigit(c)
  }

  /**
   The characters `trim` strips: ECMAScript WhiteSpace (tab, vertical tab,
   form feed, the byte order mark and every space separator) and
   LineTerminator (line feed, carriage return, U+2028, U+2029).
   */
  predicate IsWhiteSpace(c: char) {
    var n := c as int;
    n == 0x09 || n == 0x0A || n == 0x0B || n == 0x0C || n == 0x0D || n == 0x20
    || n == 0xA0 || n == 0x1680 || (0x2000 <= n <= 0x200A) || n == 0x2028
    || n == 0x2029 || n == 0x202F || n == 0x205F || n == 0x3000 || n == 0xFEFF
  }

  /** ASCII lower-casing of one character. */
  function ToLower(c: char): char {
    if 'A' <= c <= 'Z' then (c as int + 32) as char else c
  }

  /**
   `toLowerCase` on ASCII: no upper-case letter survives, each one becomes
   the lower-case letter 32 code points above it, and everything else is kept.
   */
  function Lower(s: string): (r: string)
    ensures |r| == |s|
    ensures forall i :: 0 <= i < |r| ==> !('A' <= r[i] <= 'Z')
    ensures forall i :: 0 <= i < |s| && !('A' <= s[i] <= 'Z') ==> r[i] == s[i]
    ensures forall i :: 0 <= i < |s| && 'A' <= s[i] <= 'Z' ==> 'a' <= r[i] <= 'z' && r[i] as int == s[i] as int + 32
  {
    seq(|s|, i requires 0 <= i < |s| => ToLower(s[i]))
  }

  /** Lower-casing twice is lower-casing once. */
  lemma LowerIdempotent(s: string)
    ensures Lower(Lower(s)) == Lower(s)
  {
    assert forall i :: 0 <= i < |s| ==> Lower(Lower(s))[i] == Lower(s)[i];
  }

  /** `trimStart`: drops the longest all-white-space prefix. */
  function TrimStart(s: string): (r: string)
    ensures |r| <= |s| && r == s[|s| - |r|..]
    ensures forall k :: 0 <= k < |s| - |r| ==> IsWhiteSpace(s[k])
    ensures |r| > 0 ==> !IsWhiteSpace(r[0])
  {
    if |s| > 0 && IsWhiteSpace(s[0]) then TrimStart(s[1..]) else s
  }

  /** `trimEnd`: drops the longest all-white-space suffix. */
  function TrimEnd(s: string): (r: string)
    ensures |r| <= |s| && r == s[..|r|]
    ensures forall k :: |r| <= k < |s| ==> IsWhiteSpace(s[k])
    ensures |r| > 0 ==> !IsWhiteSpace(r[|r| - 1])
  {
    if |s| > 0 && IsWhiteSpace(s[|s| - 1]) then TrimEnd(s[..|s| - 1]) else s
  }

  function Trim(s: string): string {
    TrimEnd(TrimStart(s))
  }

  /** A string trims to nothing exactly when every character is white space. */
  lemma TrimEmptyIff(s: string)
    ensures Trim(s) == "" <==> forall k :: 0 <= k < |s| ==> IsWhiteSpace(s[k])
  {
    var t := TrimStart(s);
    if Trim(s) != "" {
      var r := Trim(s);
      assert r[0] == t[0];
      assert t[0] == s[|s| - |t|];
    }
  }

  /** `t` occurs in `s` starting at index `i`. */
  ghost predicate OccursAt(s: string, t: string, i: nat) {
    i + |t| <= |s| && s[i..i + |t|] == t
  }

  predicate StartsWith(s: string, t: string) {
    |t| <= |s| && s[..|t|] == t
  }

  /** `s.includes(t)`: a left-to-right search for `t` inside `s`. */
  function Includes(s: string, t: string): (r: bool)
    ensures r <==> exists i: nat :: i <= |s| && OccursAt(s, t, i)
  {
    if StartsWith(s, t) then
      assert OccursAt(s, t, 0);
      true
    else if |s| == 0 then
      assert forall i: nat :: i <= |s| ==> !OccursAt(s, t, i);
      false
    else
      var r := Includes(s[1..], t);
      assert forall i: nat :: i < |s| ==> (OccursAt(s[1..], t, i) <==> OccursAt(s, t, i + 1)) by {
        forall i: nat | i < |s|
          ensures OccursAt(s[1..], t, i) <==> OccursAt(s, t, i + 1)
        {
          if i + |t| <= |s| - 1 {
            assert s[1..][i..i + |t|] == s[i + 1..i + 1 + |t|];
          }
        }
      }
      if r then
        assert exists i: nat :: i <= |s| && OccursAt(s, t, i) by {
          var i: nat :| i <= |s| - 1 && OccursAt(s[1..], t, i);
          assert OccursAt(s, t, i + 1);
        }
        true
      else
        assert forall i: nat :: i <= |s| ==> !OccursAt(s, t, i) by {
          forall i: nat | i <= |s|
            ensures !OccursAt(s, t, i)
          {
            if i == 0 {
              assert !StartsWith(s, t);
            } else {
              assert !OccursAt(s[1..], t, i - 1);
            }
          }
        }
        false
  }

  predicate AllDigits(s: string) {
    forall i :: 0 <= i < |s| ==> IsDigit(s[i])
  }

  function DigitValue(c: char): nat
    requires IsDigit(c)
  {
    c as int - '0' as int
  }

  function DigitChar(d: nat): (c: char)
    requires d < 10
    ensures IsDigit(c) && DigitValue(c) == d
  {
    ('0' as int + d) as char
  }

  /** `parseInt(s, 10)` on a string of decimal digits. */
  function DigitsValue(s: string): nat
    requires AllDigits(s)
  {
    if |s| == 0 then 0 else DigitsValue(s[..|s| - 1]) * 10 + DigitValue(s[|s| - 1])
  }

  /** `String(n)` for a natural number: its shortest decimal rendering. */
  function NatToDecimal(n: nat): (r: string)
    ensures |r| > 0 && AllDigits(r)
    ensures DigitsValue(r) == n
    ensures |r| > 1 ==> r[0] != '0'
    ensures n < 10 <==> |r| == 1
  {
    if n < 10 then [DigitChar(n)]
    else
      var p := NatToDecimal(n / 10);
      var r := p + [DigitChar(n % 10)];
      assert r[..|r| - 1] == p;
      r
  }
}

=== FILE: view.dfy ===
/**
 The playlist page's view logic (server/client/assets/js/playlists.js): the
 order items are shown in, the title filter, and which playlist is active
 after loading, refreshing or deleting.
 */
module PlaylistView {
  import opened Js
  import opened Text
  import opened Seqs
  import opened PlaylistStore

  // ---------- Sorting by rating ----------

  /** Ratings from highest to lowest. */
  predicate NonIncreasing(s: seq<Item>) {
    forall i, j :: 0 <= i < j < |s| ==> s[i].rating >= s[j].rating
  }

  /** The items carrying rating `v`, in order. */
  function WithRating(s: seq<Item>, v: real): (r: seq<Item>)
    ensures forall x :: x in r <==> x in s && x.rating == v
  {
    if |s| == 0 then []
    else
      assert s == [s[0]] + s[1..];
      (if s[0].rating == v then [s[0]] else []) + WithRating(s[1..], v)
  }

  /**
   One step of the stable sort: `x` goes after every item rated strictly
   higher and before the first item rated the same or lower, so an item
   that came first stays ahead of the equally rated ones behind it.
   */
  function Insert(x: Item, s: seq<Item>): (r: seq<Item>)
    ensures |r| == |s| + 1
    ensures multiset(r) == multiset(s) + multiset{x}
  {
    if |s| == 0 || s[0].rating <= x.rating then [x] + s
    else
      assert s == [s[0]] + s[1..];
      [s[0]] + Insert(x, s[1..])
  }

  lemma {:induction false} InsertSorted(x: Item, s: seq<Item>)
    requires NonIncreasing(s)
    ensures NonIncreasing(Insert(x, s))
  {
    if |s| == 0 || s[0].rating <= x.rating {
      assert forall j :: 0 <= j < |s| ==> s[j].rating <= s[0].rating;
      ConsSorted(x, s);
    } else {
      var tail := s[1..];
      assert NonIncreasing(tail);
      InsertSorted(x, tail);
      var rest := Insert(x, tail);
      assert forall y: Item :: y in multiset(tail) ==> y.rating <= s[0].rating;
      forall k | 0 <= k < |rest|
        ensures rest[k].rating <= s[0].rating
      {
        assert rest[k] in multiset(rest);
      }
      ConsSorted(s[0], rest);
    }
  }

  lemma ConsSorted(y: Item, rest: seq<Item>)
    requires NonIncreasing(rest)
    requires forall k :: 0 <= k < |rest| ==> rest[k].rating <= y.rating
    ensures NonIncreasing([y] + rest)
  {
    var t := [y] + rest;
    forall i, j | 0 <= i < j < |t|
      ensures t[i].rating >= t[j].rating
    {
      assert t[j] == rest[j - 1];
      if i > 0 {
        assert t[i] == rest[i - 1];
      }
    }
  }

  /**
   `[...items].sort((a, b) => (b.rating || 0) - (a.rating || 0))` with the
   stable sort ECMAScript 2019 requires: a permutation of the input, rated
   from highest to lowest.
   */
  function SortByRating(items: seq<Item>): (r: seq<Item>)
    ensures multiset(r) == multiset(items)
    ensures NonIncreasing(r)
  {
    if |items| == 0 then []
    else
      assert items == [items[0]] + items[1..];
      InsertSorted(items[0], SortByRating(items[1..]));
      Insert(items[0], SortByRating(items[1..]))
  }

  lemma {:induction false} WithRatingAppend(a: seq<Item>, b: seq<Item>, v: real)
    ensures WithRating(a + b, v) == WithRating(a, v) + WithRating(b, v)
  {
    if |a| > 0 {
      assert (a + b)[0] == a[0];
      assert (a + b)[1..] == a[1..] + b;
      WithRatingAppend(a[1..], b, v);
    } else {
      assert a + b == b;
    }
  }

  lemma WithRatingCons(y: Item, rest: seq<Item>, v: real)
    ensures WithRating([y] + rest, v) == (if y.rating == v then [y] else []) + WithRating(rest, v)
  {
    assert ([y] + rest)[0] == y && ([y] + rest)[1..] == rest;
  }

  lemma {:induction false} WithRatingInsert(x: Item, s: seq<Item>, v: real)
    ensures WithRating(Insert(x, s), v) == (if x.rating == v then [x] else []) + WithRating(s, v)
  {
    if |s| == 0 || s[0].rating <= x.rating {
      WithRatingCons(x, s, v);
    } else {
      var tail := s[1..];
      var rest := Insert(x, tail);
      assert Insert(x, s) == [s[0]] + rest;
      assert s == [s[0]] + tail;
      WithRatingInsert(x, tail, v);
      WithRatingCons(s[0], rest, v);
      WithRatingCons(s[0], tail, v);
      if x.rating == v {
        assert s[0].rating != v;
        assert WithRating(Insert(x, s), v) == WithRating(rest, v);
        assert WithRating(s, v) == WithRating(tail, v);
      } else if s[0].rating == v {
        assert WithRating(rest, v) == WithRating(tail, v);
        assert WithRating(Insert(x, s), v) == [s[0]] + WithRating(tail, v);
      } else {
        assert WithRating(rest, v) == WithRating(tail, v);
        assert WithRating(Insert(x, s), v) == WithRating(tail, v);
      }
    }
  }

  /** Stability: the items of any one rating appear in the order they had before sorting. */
  lemma {:induction false} SortByRatingStable(items: seq<Item>, v: real)
    ensures WithRating(SortByRating(items), v) == WithRating(items, v)
  {
    if |items| > 0 {
      SortByRatingStable(items[1..], v);
      WithRatingInsert(items[0], SortByRating(items[1..]), v);
    }
  }

  /** The list is already in rating order and its equal ratings in input order: sorting is the identity. */
  lemma {:induction false} SortByRatingSorted(items: seq<Item>)
    requires NonIncreasing(items)
    ensures SortByRating(items) == items
  {
    if |items| > 0 {
      var tail := items[1..];
      assert NonIncreasing(tail);
      SortByRatingSorted(tail);
      if |tail| > 0 {
        assert tail[0] == items[1];
      }
    }
  }

  /** `sortItems(items, mode)` for the modes other than `"alpha"`. */
  function SortItems(items: seq<Item>, mode: string): (r: seq<Item>)
    requires mode != "alpha"
    ensures multiset(r) == multiset(items)
    ensures mode == "rating" ==> NonIncreasing(r)
    ensures mode != "rating" ==> r == items
  {
    if mode == "rating" then SortByRating(items) else items
  }

  // ---------- The title filter ----------

  /** `(filterInput.value || "").toLowerCase()` */
  function FilterText(input: Option<string>): string {
    Lower(input.GetOr(""))
  }

  predicate TitleMatches(it: Item, needle: string) {
    Includes(Lower(it.title), needle)
  }

  /**
   `items.filter(it => it.title.toLowerCase().includes(filterText))`:
   exactly the matching items, in their original order.
   */
  function FilterByTitle(items: seq<Item>, input: Option<string>): (r: seq<Item>)
    ensures forall x :: x in r <==> x in items && TitleMatches(x, FilterText(input))
    ensures Subsequence(r, items)
  {
    if |items| == 0 then []
    else
      var rest := FilterByTitle(items[1..], input);
      assert items == [items[0]] + items[1..];
      if TitleMatches(items[0], FilterText(input)) then [items[0]] + rest else rest
  }

  /** The filter distributes over concatenation, so a matching item keeps every one of its copies. */
  lemma {:induction false} FilterByTitleAppend(a: seq<Item>, b: seq<Item>, input: Option<string>)
    ensures FilterByTitle(a + b, input) == FilterByTitle(a, input) + FilterByTitle(b, input)
  {
    if |a| > 0 {
      assert (a + b)[0] == a[0];
      assert (a + b)[1..] == a[1..] + b;
      FilterByTitleAppend(a[1..], b, input);
    } else {
      assert a + b == b;
    }
  }

  /** An empty (or absent) filter keeps every item in order. */
  lemma {:induction false} EmptyFilterKeepsAll(items: seq<Item>, input: Option<string>)
    requires Falsy(input)
    ensures FilterByTitle(items, input) == items
  {
    if |items| > 0 {
      assert StartsWith(Lower(items[0].title), "");
      EmptyFilterKeepsAll(items[1..], input);
      assert items == [items[0]] + items[1..];
    }
  }

  /** Filtering never invents or reorders, so refiltering with the same text changes nothing. */
  lemma {:induction false} FilterIdempotent(items: seq<Item>, input: Option<string>)
    ensures FilterByTitle(FilterByTitle(items, input), input) == FilterByTitle(items, input)
  {
    if |items| > 0 {
      FilterIdempotent(items[1..], input);
      var rest := FilterByTitle(items[1..], input);
      if TitleMatches(items[0], FilterText(input)) {
        assert ([items[0]] + rest)[1..] == rest;
      }
    }
  }

  /** The list `renderMain` shows: filtered first, then ordered by the sort mode. */
  function VisibleItems(pl: Playlist, input: Option<string>, mode: string): (r: seq<Item>)
    requires mode != "alpha"
    ensures forall x :: x in r <==> x in pl.items && TitleMatches(x, FilterText(input))
    ensures mode == "rating" ==> NonIncreasing(r)
    ensures mode != "rating" ==> Subsequence(r, pl.items)
    ensures multiset(r) == multiset(FilterByTitle(pl.items, input))
    ensures mode != "rating" ==> r == FilterByTitle(pl.items, input)
    ensures mode == "rating" ==> forall v :: WithRating(r, v) == WithRating(FilterByTitle(pl.items, input), v)
  {
    var shown := FilterByTitle(pl.items, input);
    var r := SortItems(shown, mode);
    assert forall x :: x in r <==> x in multiset(shown);
    assert mode == "rating" ==> forall v :: WithRating(r, v) == WithRating(shown, v) by {
      if mode == "rating" {
        forall v {
          SortByRatingStable(shown, v);
        }
      }
    }
    r
  }

  // ---------- The active playlist ----------

  /** `playlists.some(p => p.id === id)` */
  function HasId(ps: seq<Playlist>, id: string): (r: bool)
    ensures r <==> exists j :: 0 <= j < |ps| && ps[j].id == id
  {
    if |ps| == 0 then false
    else if ps[0].id == id then true
    else
      assert forall j :: 1 <= j < |ps| ==> ps[j] == ps[1..][j - 1];
      HasId(ps[1..], id)
  }

  /** `playlists[0]?.id || null`: an empty id is falsy and reads as null too. */
  function FirstId(ps: seq<Playlist>): (r: Option<string>)
    ensures r.Some? <==> |ps| > 0 && ps[0].id != ""
    ensures r.Some? ==> r.value == ps[0].id && HasId(ps, r.value)
  {
    if |ps| == 0 || ps[0].id == "" then None else Some(ps[0].id)
  }

  /**
   `chooseInitialActive()`: the query-string id when it names a loaded
   playlist, else the first playlist's id, else null.
   */
  function ChooseInitialActive(ps: seq<Playlist>, queryId: Option<string>): (r: Option<string>)
    ensures !Falsy(queryId) && HasId(ps, queryId.value) ==> r == queryId
    ensures !(!Falsy(queryId) && HasId(ps, queryId.value)) ==> r == FirstId(ps)
    ensures r.Some? ==> r.value != "" && HasId(ps, r.value)
  {
    if !Falsy(queryId) && HasId(ps, queryId.value) then queryId else FirstId(ps)
  }

  /**
   The active-id repair in `refreshPlaylists()`: an id that is still loaded
   (or no id at all) is kept; a stale one falls back to the first playlist.
   */
  function RefreshActive(active: Option<string>, ps: seq<Playlist>): (r: Option<string>)
    ensures Falsy(active) ==> r == active
    ensures !Falsy(active) && HasId(ps, active.value) ==> r == active
    ensures !Falsy(active) && !HasId(ps, active.value) ==> r == FirstId(ps)
    ensures !Falsy(r) ==> HasId(ps, r.value)
  {
    if !Falsy(active) && !HasId(ps, active.value) then FirstId(ps) else active
  }

  /** A second refresh over the same list changes nothing. */
  lemma RefreshIdempotent(active: Option<string>, ps: seq<Playlist>)
    ensures RefreshActive(RefreshActive(active, ps), ps) == RefreshActive(active, ps)
  {
  }

  /** After the active playlist is deleted: the first remaining playlist's id, or null. */
  function ActiveAfterDelete(remaining: seq<Playlist>): (r: Option<string>)
    ensures r.Some? ==> |remaining| > 0 && r.value == remaining[0].id
    ensures |remaining| == 0 ==> r.None?
    ensures |remaining| > 0 && remaining[0].id != "" ==> r == Some(remaining[0].id)
    ensures r.None? <==> |remaining| == 0 || remaining[0].id == ""
  {
    FirstId(remaining)
  }

  /**
   Deleting a playlist through the server and reloading the owner's list
   never leaves the deleted id active.
   */
  lemma DeletedIdNotActive(all: Store, user: string, id: string)
    ensures ActiveAfterDelete(Mine(Without(all, user, id), user)) != Some(id)
  {
    var mine := Mine(Without(all, user, id), user);
    if |mine| > 0 {
      assert mine[0] in mine;
    }
  }
}
